=== FILE: README.md ===
# YouTube timestamped notes — a Dafny model of the note store and its views

The extension lets a viewer attach short text notes to moments of a YouTube
video. It has three surfaces that share one key-value store:

- the page overlay (`content.js`), which lists the notes of the playing video
  under the player and has an add form;
- the toolbar popup (`popup.js`), which asks the overlay about the playing
  video and saves a note for it;
- the management page (`options.js`), which lists every note of every video.

The store maps a video id (the `v` URL parameter) to a record holding a title
and a list of notes. A note holds a time in seconds, its text, its "MM:SS"
label and a creation time.

This project models that core as pure functions over immutable values. Each
asynchronous read-modify-write of the store becomes one atomic step on a
`map<string, Record>`. The modules are:

| module | file | what it models |
|---|---|---|
| `Outcomes` | outcomes.dfy | `Option`, `Result`, and the failure cases (each one a `throw` site) |
| `Decimal` | decimal.dfy | `String(n)` for whole numbers, and the digit-prefix reading of `parseInt(s, 10)` |
| `TimeFormat` | time_format.dfy | `formatTime`, plus a reader `ParseTime` that serves as its inverse |
| `Text` | text.dfy | `indexOf`/`includes`, `replace` with a string pattern (first occurrence only), and `trim` with the ECMAScript whitespace set |
| `StableSort` | stable_sort.dfy | `Array.prototype.sort` with a key-difference comparator, which is stable since ECMAScript 2019 |
| `NoteStore` | note_store.dfy | `saveNote`, defined once for content.js and popup.js; `deleteNote`; and the store invariant |
| `Overview` | overview.dfy | `getAllNotes` (flatten, defaults, newest first), the grouping and rendering in `renderNotes`, and the jump URL |
| `Overlay` | overlay.dfy | `isInsideSVG`, the title taken from `document.title`, the `getVideoInfo` reply, and the render/retry state of `initContentScript` |
| `Popup` | popup.dfy | the checks in `getVideoInfo`, the save handler's text validation, and properties that span the surfaces |

Identical code in several places is defined once:

- `formatTime` appears three times with the same text: `content.js:251-255`,
  `options.js:2-6` and `popup.js:2-6`.
- `saveNote` appears twice with the same text: `content.js:368-394` and
  `popup.js:38-64`.
- The two save handlers share the same trim-and-refuse check:
  `content.js:316-327` and `popup.js:92-106`.

Some rows below cite one copy and some cite another. Every copy is modelled by
the same member.

The model follows the code's JavaScript semantics:

- The empty string is falsy. An empty title, label or video id counts as
  missing.
- `padStart` never truncates, so minutes are not wrapped into hours.
- `replace` with a string pattern replaces only the first match.
- `sort` is stable.
- A record without a notes array makes the `push` in `saveNote` throw. This is
  modelled as `Err(MalformedRecord)`.

## Model

| member | source | states |
|---|---|---|
| `Decimal.NatToString` | extension/js/content.js:254 | `String(n)` is a non-empty run of digits with no leading zero. It is one digit exactly below 10, and at most two digits below 100. |
| `Decimal.ParseNatToString` | extension/js/content.js:254 | Reading the digits of `String(n)` back gives `n`. |
| `Decimal.LongNumber` | extension/js/content.js:254 | From 100 on, `String(n)` has at least three digits, so `padStart(2, '0')` adds nothing. |
| `Decimal.ParseIntPrefix` | extension/js/options.js:114 | `parseInt` returns NaN exactly when the text does not start with a digit. |
| `Decimal.ParseIntPrefixOfRendered` | extension/js/options.js:114 | `parseInt` of a rendered time, possibly followed by a fraction, gives that time back. |
| `TimeFormat.PadTwo` | extension/js/content.js:254 | `padStart(2, '0')` keeps the text as the suffix. It adds only zeros, to width 2, and never truncates. |
| `TimeFormat.FieldValue` | extension/js/content.js:252-254 | A padded field has at least two digits and reads back as its number. Below 100 it has exactly two digits. |
| `TimeFormat.FormatTime` | extension/js/content.js:251-255 | The label is whole minutes (at least two digits, no hour wrap), then a colon, then exactly two digits of seconds within the minute. Each part reads back as its number. |
| `TimeFormat.FormatTimeMinimal` | extension/js/content.js:252-254 | No extra zeros: the label is exactly five characters exactly when the minutes are below 100, and a longer label does not start with `0`. |
| `TimeFormat.FormatTimeRoundTrip` | extension/js/content.js:251-255 | Parsing the label gives the seconds back. |
| `TimeFormat.FormatTimeInjective` | extension/js/popup.js:2-6 | Distinct times never share a label. |
| `TimeFormat.FormatTimeExamples` | extension/js/options.js:2-6 | 0 → "00:00", 42 → "00:42", 65 → "01:05". |
| `TimeFormat.FormatTimeLongExamples` | extension/js/popup.js:2-6 | 3600 → "60:00" and 7509 → "125:09": minutes keep counting past an hour. |
| `Text.FindFirst` | extension/js/popup.js:20 | The index reported is an occurrence and none occurs earlier. No index is reported only when there is no occurrence at all. |
| `Text.ReplaceFirst` | extension/js/content.js:269 | Only the first occurrence of the pattern is replaced. Without an occurrence the text is unchanged. |
| `Text.Trim` | extension/js/content.js:317 | The result is the infix left after dropping a whitespace prefix and a whitespace suffix. It neither starts nor ends with whitespace, and it is empty exactly when the input is all whitespace. |
| `StableSort.SortBy` | extension/js/content.js:384 | The result is sorted by key, is a permutation of the input, and keeps the input order among equal keys. |
| `StableSort.StableSortUnique` | extension/js/content.js:384 | Two key-sorted lists with the same ties are equal, so a stable sort has exactly one possible result. |
| `StableSort.SortByIsTheStableSort` | extension/js/options.js:31 | Any sorted rearrangement that keeps the ties is `SortBy`'s result. |
| `StableSort.SortBySorted` | extension/js/content.js:384 | Sorting an already sorted list changes nothing. |
| `StableSort.LandingSplits` | extension/js/content.js:383-384 | In a sorted list, the landing position of a new element falls after every key ≤ its own and before every larger key. |
| `StableSort.SortSortedPlusOne` | extension/js/content.js:383-384 | Pushing onto a sorted list and then sorting inserts the new element at its landing position. |
| `NoteStore.AddNote` | extension/js/content.js:372-388 | Fails exactly when the stored record has no notes array. An absent record is created as `{title, [note]}`. Otherwise only this key changes, the title is overwritten, and the notes are sorted, equal to the old notes plus the new one as a multiset, with ties kept. |
| `NoteStore.SaveNote` | extension/js/content.js:368-394 | Fails, with `MalformedRecord`, exactly when the stored record has no notes array. An absent record is created holding only the new note. Otherwise only this key changes, the title is overwritten, and the notes are sorted, equal to the old notes plus the new one as a multiset, with ties kept in push order. The new note carries `formatTime(time)` as its label and `now` as its creation time. |
| `NoteStore.AddNoteLanding` | extension/js/content.js:383-384 | On a sorted list, the new note lands right after every note with time ≤ its own. The old notes keep their order. |
| `NoteStore.AddPreservesWellFormed` | extension/js/content.js:383-388 | On a store where every record has a non-empty sorted notes array, adding never fails and keeps that invariant. |
| `NoteStore.SavePreservesWellFormed` | extension/js/popup.js:38-64 | The same for `saveNote`. |
| `NoteStore.DeleteNote` | extension/js/content.js:397-422 | Fails exactly when the record, its notes or `notes[index]` is missing, including negative and out-of-range indexes. Otherwise it removes exactly that entry and the rest keep their order. The key is dropped exactly when no note is left, and every other key is unchanged. |
| `NoteStore.DeleteRemovesOne` | extension/js/content.js:408 | The remaining notes plus the removed one make up the old notes. |
| `NoteStore.DeletePreservesWellFormed` | extension/js/content.js:408-416 | Deleting keeps every record non-empty and sorted. |
| `NoteStore.DeleteUndoesAdd` | extension/js/content.js:372-416 | On a well-formed store (every record has a non-empty notes array sorted by time), deleting the note at the index where an add placed it restores the store, provided the title is unchanged. |
| `NoteStore.DeleteUndoesSave` | extension/js/popup.js:41-58 | The same for `saveNote`: on a well-formed store (every record has a non-empty notes array sorted by time), deleting the saved note at its landing index restores the store, provided the title is unchanged. |
| `NoteStore.WorkedSession` | extension/js/content.js:368-422 | Save 0:42 (labelled "00:42"), save 0:10 (which goes in front), delete index 0, delete index 0: the key is gone. |
| `NoteStore.SaveNoteAsWritten` | extension/js/content.js:372 | As written, the first save for an id that names an `Object.prototype` member fails. All other saves behave as `SaveNote`. |
| `NoteStore.InheritedIdCannotBeSaved` | extension/js/popup.js:42 | For `v=constructor`, the as-written save fails and the intended save succeeds. |
| `Overview.TitleOrDefault` | extension/js/options.js:20 | A present, non-empty title is kept. A missing or empty one becomes 'タイトル不明'. The result is never empty. |
| `Overview.Annotate` | extension/js/options.js:18-25 | An entry keeps the note's time and text and its parent's id, and the title defaults as `TitleOrDefault` says. A stored non-empty label is kept. A missing or empty label is replaced by `formatTime(time)`. A missing creation time becomes 0. |
| `Overview.AnnotateAll` | extension/js/options.js:17-26 | One entry per note, in note order. |
| `Overview.Flatten` | extension/js/options.js:15-28 | The entry count is the total number of notes in records that have a notes array. |
| `Overview.FlattenAppend` | extension/js/options.js:15-28 | Flattening two listings one after the other gives the two flattenings concatenated. |
| `Overview.FlattenPositions` | extension/js/options.js:15-28 | The entries of the `k`-th record start right after those of the earlier records. There is one entry per note (none without a notes array), and entry `i` annotates note `i`. |
| `Overview.FlattenEnds` | extension/js/options.js:15-28 | The entries of the last record end where the flattening ends. |
| `Overview.FlattenMembers` | extension/js/options.js:15-28 | An entry is listed exactly when it annotates a note of a record that has a notes array. It carries that record's id. |
| `Overview.GetAllNotes` | extension/js/options.js:9-37 | A failed read gives no entries. Otherwise the result is the flattened entries as a multiset, newest first, with flatten order kept among equal creation times. |
| `Overview.GetAllNotesIsDetermined` | extension/js/options.js:31 | Any such newest-first arrangement that keeps ties is the result of `getAllNotes`. |
| `Overview.FirstIndex` | extension/js/options.js:65 | Gives the position where a video is first met: that entry has the id and no earlier entry does. |
| `Overview.GroupIndex` | extension/js/options.js:65 | Gives the group for an id, or reports that no group has that id. |
| `Overview.GroupByVideo` | extension/js/options.js:63-72 | Builds one group per video mentioned, with distinct ids, and every entry has a group. Each group holds exactly its video's entries in order, takes its title from the first of them, and groups are ordered by first mention. |
| `Overview.RenderGroup` | extension/js/options.js:83-89 | The count equals the number of notes. The notes are sorted by time, the same multiset as before, with ties kept. |
| `Overview.RenderGroups` | extension/js/options.js:77-106 | One section per group, in group order. |
| `Overview.RenderPage` | extension/js/options.js:53-57 | The empty-state message is shown exactly when there are no entries. |
| `Overview.RenderPageSections` | extension/js/options.js:77-100 | A non-empty list is shown as sections. Sections have distinct videos and every entry's video has a section. Each section shows its video's entries sorted by time, with the right count. |
| `Overview.SectionsOfGroups` | extension/js/options.js:77-100 | The sections rendered from a correct grouping show each entry once, in its video's section. |
| `Overview.ClickJumpsToNote` | extension/js/options.js:111-116 | A button's `data-time` reads back through `parseInt`, so the click opens the video at the note's second. |
| `Overview.JumpUrl` | extension/js/options.js:40-43 | The URL consists of the watch prefix, the id, `&t=`, exactly `String(time)` (which reads back as the time), and then `s`. |
| `Overview.ClickUrl` | extension/js/options.js:111-116 | When `data-time` starts with a digit, the click opens the jump URL of its integer prefix. Otherwise the URL carries `t=NaN`. |
| `Overlay.BodyIndex` | extension/js/content.js:110 | The walk stops at the first `body` or at the root. |
| `Overlay.WalkUp` | extension/js/content.js:107-117 | Returns false for no element. Otherwise returns true exactly when the element or an ancestor strictly below `body` is accepted. |
| `Overlay.IsInsideSvgAsWritten` | extension/js/content.js:111 | The walk with the case-sensitive comparison against "SVG" and "DEFS". |
| `Overlay.IsInsideSvg` | extension/js/content.js:107-117 | The walk with a case-insensitive comparison, and false for no element. |
| `Overlay.SvgTestWidens` | extension/js/content.js:111 | The corrected test accepts everything the written one accepts. |
| `Overlay.SvgCaseMissed` | extension/js/content.js:111 | A `path` inside an HTML page's `svg` is missed as written and found when corrected. |
| `Overlay.AsciiUpper` | extension/js/content.js:111 | Upper-cases ASCII letters only, position by position. |
| `Overlay.ReplaceFirstSuffix` | extension/js/content.js:435 | In `t + " - YouTube" + rest`, where `t` has no suffix, only that first suffix is removed. |
| `Overlay.DeriveTitle` | extension/js/content.js:269 | The derived title never starts or ends with whitespace. Without the suffix the title is only trimmed. |
| `Overlay.DeriveTitleCutsFirstSuffix` | extension/js/content.js:435 | Where " - YouTube" first occurs, only that copy is cut out before trimming. |
| `Overlay.DeriveTitleOfWatchPage` | extension/js/content.js:269 | For a title `t` that does not itself contain " - YouTube", "`t` - YouTube" yields `Trim(t)`. |
| `Overlay.HandleGetVideoInfo` | extension/js/content.js:426-441 | Replies with an error exactly when there is no video element or no usable id. Otherwise replies with the id, the position and the derived title. |
| `Overlay.StartRendersFirstVideo` | extension/js/content.js:453-475 | The script starts with no id remembered, no try made and the current URL, so the first try that finds a usable id and a video redraws and stops. |
| `Overlay.RenderOnlyOnNewId` | extension/js/content.js:457-471 | A redraw happens exactly on a `tryRender` that sees a video, a usable id and an id different from the last one. That id is then remembered. |
| `Overlay.RetryWhileBelowMax` | extension/js/content.js:468-470 | A failed try reschedules exactly while fewer than 10 tries have been made. |
| `Overlay.Step` | extension/js/content.js:457-530 | Only a `tryRender` counts a try and only it can redraw, never while also rescheduling. A try that finds a usable id and a video never reschedules, whether or not the id is new. Any other trigger either changes nothing or clears the last id and the count. The remembered id is never the empty string. |
| `Overlay.UrlCheckTrigger` | extension/js/content.js:478-495 | `checkUrlChange` restarts the chain exactly on a `/watch` URL that differs from the remembered one, or whose usable id differs from the last rendered one. It then remembers the URL. Otherwise nothing changes. |
| `Overlay.PopStateTrigger` | extension/js/content.js:501-506 | A `popstate` always clears the last id and the count, remembers the URL and schedules a try. |
| `Overlay.IntervalTickTrigger` | extension/js/content.js:523-530 | The interval restarts the chain exactly on a `/watch` URL whose usable id differs from the last rendered one, and keeps the remembered URL. Otherwise nothing changes. |
| `Overlay.ResetForcesRender` | extension/js/content.js:478-530 | A URL change, popstate or interval event that schedules a try has cleared the last id and the count, so the next try that finds the video redraws. |
| `Overlay.OffWatchPageQuiet` | extension/js/content.js:478-495 | Away from `/watch`, URL checks and ticks change nothing, not even the remembered URL. |
| `Overlay.FailingChain` | extension/js/content.js:453-471 | An uninterrupted chain of failing tries makes `10 - attempts` tries, or 1 if 10 have already been made (exactly 10 after a reset), and never more than 10. |
| `Popup.GetVideoInfo` | extension/js/popup.js:15-35 | Sends no message unless the URL contains "youtube.com/watch". Rejects a call that resolved with no response with the default text, and an answer with a non-empty `error` with that error. Otherwise returns the answer. |
| `Popup.PopupReadsOverlayAnswer` | extension/js/popup.js:27-29 | For a tab URL containing "youtube.com/watch", the overlay's answer passes the popup's check exactly when the page has a video and an id, and then carries the id, position and title. |
| `Popup.SubmitNote` | extension/js/popup.js:93-106 | Blank text is refused with no write. Otherwise the trimmed text is saved. |
| `Popup.SubmitStoresTrimmedNote` | extension/js/content.js:317-327 | Text that is not all whitespace, for a video with no record or with a notes array, is saved. The stored note's text is non-empty with no surrounding whitespace, and its label is the formatted time. |
| `Popup.SubmittedNoteIsListed` | extension/js/options.js:15-31 | After a successful save, the management page lists the new note's entry. |
| `Popup.SubmittedNoteIsStored` | extension/js/popup.js:93-106 | A successful submit stores the trimmed note under the video, with the given title. |
| `Popup.StoredNoteIsListed` | extension/js/options.js:15-31 | Every stored note of a record with a notes array appears, annotated, in the management page's list, including notes of records without a title (listed under 'タイトル不明'). |

## Left out

- The `chrome.storage`, `chrome.tabs` and `chrome.runtime` calls, and their asynchrony.
  - The store is a value passed in and returned.
  - `Object.entries(allData)` becomes a `Listing` parameter, in the order the store enumerates.
  - The tab URL and the overlay's answer to `getVideoInfo` are parameters.
  - The `refreshNotes` message only triggers a redraw.
- Last-write-wins races between the popup and the overlay writing the same record. Each read-modify-write is treated as one atomic step.
- All DOM construction: both `renderNotes` bodies, `showAddNoteForm`, `jumpToTime`, the collapse toggle, `updateUI`, `alert`/`confirm` and the status messages.
  - `createNotesContainer`'s selector fallbacks depend on YouTube's page structure, which is not part of this model. Only its `isInsideSVG` test is modelled, over an abstract ancestor list.
- A rejected `chrome.tabs.sendMessage` (no content script listening in the tab) makes `getVideoInfo` rethrow Chrome's own error, whose message is not modelled. `Popup.GetVideoInfo` covers only calls that resolve: with no response (the default text), with an `error`, or with the video fields.
- `escapeHtml` delegates to the browser's HTML serializer, which is not part of this model.
- Timers, `MutationObserver` and the patching of `pushState`/`replaceState`. Each trigger is an `Overlay.Event`, and a scheduled try is the effect `scheduleTry`.
- Playback times are whole seconds (`nat`). `video.currentTime` is a float, and `formatTime`'s `Math.floor` on fractions is not modelled. `Date.now()` is the parameter `now`.
- `Decimal.ParseIntPrefix`: reads only an unsigned digit prefix. The leading whitespace and sign handling of `parseInt` are not modelled, because the attribute it reads is always a rendered non-negative time.
- Store values that are not objects (null, numbers), and notes that are not objects. A `notes` value that is not an array is represented as a missing one.
- `Overview.GroupByVideo`: groups come in first-mention order. JavaScript lists integer-like keys (such as "42") first in `Object.entries(groupedByVideo)`, and the model does not reproduce that, because YouTube's 11-character ids are never array indexes.
- `Overview.GroupByVideo`: the grouping looks up `groupedByVideo[id]` through the prototype chain too, the same way as the finding below. This is not modelled, because no such id can be stored as written.
- `Overlay.FailingChain`: counts the tries of a chain that no other trigger interrupts. A URL check, `popstate` or interval tick during a running chain sets the count back to 0 and can schedule a second concurrent chain, so the overall number of tries is not bounded by 10. `Overlay.Step` covers each of those triggers one at a time.
- `deleteNote` with a non-integer index, which the page never passes.

## Findings

| source | as written | input that shows it | evidently intended | confidence | as-written member | corrected member |
|---|---|---|---|---|---|---|
| extension/js/content.js:111 | `current.tagName === 'SVG' \|\| current.tagName === 'DEFS'` compares case-sensitively with upper-case names | A `path` element inside an inline `svg` on an HTML page. SVG-namespace elements report lower-case `tagName` ("svg", "defs"), so the walk answers false. | Recognise `svg`/`defs` ancestors whatever the case | medium, not executed | `Overlay.IsInsideSvgAsWritten`, shown by `Overlay.SvgCaseMissed` | `Overlay.IsInsideSvg` |
| extension/js/content.js:372 (same at popup.js:42) | `result[videoId] \|\| { title, notes: [] }` reads through `Object.prototype` | First save for `v=constructor`, which fits the 11-character id alphabet. `result.constructor` is the `Object` function, so `existingData.notes.push` throws. | Start a fresh record when no record is stored | medium, not executed | `NoteStore.SaveNoteAsWritten`, shown by `NoteStore.InheritedIdCannotBeSaved` | `NoteStore.SaveNote` |

=== FILE: decimal.dfy ===
/** Decimal digits: JavaScript's `String(n)` for a non-negative integer and the
    digit-prefix reading done by `parseInt(s, 10)`. */
module Decimal {
  import opened Outcomes

  predicate IsDigit(c: char) {
    '0' <= c <= '9'
  }

  predicate AllDigits(s: string) {
    forall i :: 0 <= i < |s| ==> IsDigit(s[i])
  }

  function DigitValue(c: char): (d: nat)
    requires IsDigit(c)
    ensures d < 10
  {
    c as int - '0' as int
  }

  function DigitChar(d: nat): (c: char)
    requires d < 10
    ensures IsDigit(c) && DigitValue(c) == d
  {
    (d + '0' as int) as char
  }

  /** The value of a string of decimal digits, most significant first; "" reads as 0. */
  function ParseDigits(s: string): nat
    requires AllDigits(s)
  {
    if s == [] then 0 else ParseDigits(s[..|s| - 1]) * 10 + DigitValue(s[|s| - 1])
  }

  /** `String(n)`: shortest decimal rendering, no sign, no leading zero. */
  function NatToString(n: nat): (s: string)
    ensures |s| > 0 && AllDigits(s)
    ensures |s| > 1 ==> s[0] != '0'
    ensures |s| == 1 <==> n < 10
    ensures n < 100 ==> |s| <= 2
  {
    if n < 10 then [DigitChar(n)] else NatToString(n / 10) + [DigitChar(n % 10)]
  }

  /** From 100 on, `String(n)` has at least three digits. */
  lemma LongNumber(n: nat)
    requires n >= 100
    ensures |NatToString(n)| >= 3
  {
    assert NatToString(n) == NatToString(n / 10) + [DigitChar(n % 10)];
  }

  /** Reading back what `String(n)` printed gives `n`. */
  lemma {:induction false} ParseNatToString(n: nat)
    ensures ParseDigits(NatToString(n)) == n
  {
    if n >= 10 {
      var s := NatToString(n);
      assert s[..|s| - 1] == NatToString(n / 10);
      ParseNatToString(n / 10);
    }
  }

  /** A leading zero does not change the value read. */
  lemma {:induction false} ParseLeadingZero(s: string)
    requires AllDigits(s)
    ensures ParseDigits("0" + s) == ParseDigits(s)
  {
    if s != [] {
      var z := "0" + s;
      assert z[..|z| - 1] == "0" + s[..|s| - 1];
      ParseLeadingZero(s[..|s| - 1]);
    }
  }

  /** The longest prefix of `s` made of decimal digits. */
  function DigitPrefix(s: string): (p: string)
    ensures |p| <= |s| && p == s[..|p|]
    ensures AllDigits(p)
    ensures |p| < |s| ==> !IsDigit(s[|p|])
  {
    if s != [] && IsDigit(s[0]) then [s[0]] + DigitPrefix(s[1..]) else []
  }

  /** `parseInt(s, 10)` restricted to unsigned input: the value of the leading
      digits, or None (NaN) when `s` does not start with a digit. */
  function ParseIntPrefix(s: string): (r: Option<nat>)
    ensures r.None? <==> (s == [] || !IsDigit(s[0]))
  {
    var p := DigitPrefix(s);
    if p == [] then None else Some(ParseDigits(p))
  }

  /** Digits followed by anything that does not start with a digit (the end of
      the string, or a decimal point) read back as the digits' value. */
  lemma {:induction false} ParseIntPrefixOfDigits(digits: string, rest: string)
    requires |digits| > 0 && AllDigits(digits)
    requires rest == [] || !IsDigit(rest[0])
    ensures ParseIntPrefix(digits + rest) == Some(ParseDigits(digits))
  {
    DigitPrefixOfDigits(digits, rest);
  }

  lemma {:induction false} DigitPrefixOfDigits(digits: string, rest: string)
    requires AllDigits(digits)
    requires rest == [] || !IsDigit(rest[0])
    ensures DigitPrefix(digits + rest) == digits
  {
    if digits != [] {
      assert (digits + rest)[1..] == digits[1..] + rest;
      DigitPrefixOfDigits(digits[1..], rest);
    }
  }

  /** The time attribute rendered from a whole number of seconds, possibly
      followed by a fractional part, is read back by `parseInt` as those seconds. */
  lemma ParseIntPrefixOfRendered(n: nat, fraction: string)
    requires fraction == [] || fraction[0] == '.'
    ensures ParseIntPrefix(NatToString(n) + fraction) == Some(n)
  {
    ParseIntPrefixOfDigits(NatToString(n), fraction);
    ParseNatToString(n);
  }
}

=== FILE: note_store.dfy ===
/** The local key-value store shared by the overlay, the popup and the
    management page, and the two writes made to it: `saveNote` (identical in
    content.js and popup.js, defined once here) and `deleteNote`.
    Each read-modify-write is one atomic step on an immutable map. */
module NoteStore {
  import opened Outcomes
  import opened TimeFormat
  import opened StableSort

  /** A stored note. `stamp` (stored as `timestamp_text`) and `createdAt` are
      written by every save but are optional for readers of older data. */
  datatype Note = Note(time: nat, text: string, stamp: Option<string>, createdAt: Option<nat>)

  /** The value stored under a video id. A record whose `notes` is missing or
      is not an array is represented with `notes == None`. */
  datatype Record = Record(title: Option<string>, notes: Option<seq<Note>>)

  type Store = map<string, Record>

  /** The sort key of `(a, b) => a.time - b.time`. */
  function TimeOf(n: Note): int {
    n.time
  }

  /** The note `saveNote` creates: the stamp is the formatted time, `createdAt` the clock reading. */
  function NewNote(time: nat, text: string, now: nat): Note {
    Note(time, text, Some(FormatTime(time)), Some(now))
  }

  /** The notes of `id` before a save: none for a new video. */
  function NotesBefore(store: Store, id: string): seq<Note>
  {
    if id in store && store[id].notes.Some? then store[id].notes.value else []
  }

  /** The store invariant every write keeps: every record has a non-empty
      notes array sorted by time. */
  predicate WellFormed(store: Store) {
    forall id :: id in store ==>
      store[id].notes.Some? && store[id].notes.value != [] && SortedBy(store[id].notes.value, TimeOf)
  }

  /** The read-merge-write of `saveNote` for a given new note: start from
      `{title, notes: []}` when the video has no record, push the note,
      stable-sort by time, overwrite the title. Pushing onto a record without a
      notes array throws. */
  function AddNote(store: Store, videoId: string, videoTitle: string, n: Note): (r: Result<Store>)
    ensures r.Err? <==> videoId in store && store[videoId].notes.None?
    ensures r.Err? ==> r.error == MalformedRecord
    ensures videoId !in store ==> r == Ok(store[videoId := Record(Some(videoTitle), Some([n]))])
    ensures r.Ok? ==>
      && r.value.Keys == store.Keys + {videoId}
      && (forall id :: id in store && id != videoId ==> r.value[id] == store[id])
      && r.value[videoId].title == Some(videoTitle)
      && r.value[videoId].notes.Some?
      && SortedBy(r.value[videoId].notes.value, TimeOf)
      && multiset(r.value[videoId].notes.value) == multiset(NotesBefore(store, videoId)) + multiset{n}
      && SameTies(NotesBefore(store, videoId) + [n], r.value[videoId].notes.value, TimeOf)
  {
    var existing := if videoId in store then store[videoId] else Record(Some(videoTitle), Some([]));
    if existing.notes.None? then Err(MalformedRecord)
    else
      var notes := SortBy(existing.notes.value + [n], TimeOf);
      assert videoId !in store ==> notes == [n];
      Ok(store[videoId := Record(Some(videoTitle), Some(notes))])
  }

  /** `saveNote(videoId, videoTitle, currentTime, noteText)`, with `Date.now()`
      passed in as `now`: the new note carries its formatted time as its stamp. */
  function SaveNote(store: Store, videoId: string, videoTitle: string, time: nat, text: string, now: nat)
    : (r: Result<Store>)
    ensures r.Err? <==> videoId in store && store[videoId].notes.None?
    ensures r.Err? ==> r.error == MalformedRecord
    ensures videoId !in store ==>
      r == Ok(store[videoId := Record(Some(videoTitle), Some([Note(time, text, Some(FormatTime(time)), Some(now))]))])
    ensures r.Ok? ==>
      && r.value.Keys == store.Keys + {videoId}
      && (forall id :: id in store && id != videoId ==> r.value[id] == store[id])
      && r.value[videoId].title == Some(videoTitle)
      && r.value[videoId].notes.Some?
      && SortedBy(r.value[videoId].notes.value, TimeOf)
      && multiset(r.value[videoId].notes.value)
         == multiset(NotesBefore(store, videoId)) + multiset{Note(time, text, Some(FormatTime(time)), Some(now))}
      && SameTies(NotesBefore(store, videoId) + [Note(time, text, Some(FormatTime(time)), Some(now))],
                  r.value[videoId].notes.value, TimeOf)
  {
    AddNote(store, videoId, videoTitle, NewNote(time, text, now))
  }

  /** The names every plain JavaScript object inherits from `Object.prototype`. */
  const InheritedNames: set<string> := {
    "constructor", "hasOwnProperty", "isPrototypeOf", "propertyIsEnumerable",
    "toLocaleString", "toString", "valueOf", "__proto__",
    "__defineGetter__", "__defineSetter__", "__lookupGetter__", "__lookupSetter__"
  }

  /** `saveNote` as written: `result[videoId] || {...}` reads through the
      prototype chain of the object the storage read resolves with. For a video
      with no record whose id names an inherited member, the "existing record"
      is that member, which has no notes array, and the push throws. */
  function SaveNoteAsWritten(store: Store, videoId: string, videoTitle: string, time: nat, text: string, now: nat)
    : (r: Result<Store>)
    ensures videoId !in store && videoId in InheritedNames ==> r == Err(MalformedRecord)
    ensures videoId in store || videoId !in InheritedNames ==> r == SaveNote(store, videoId, videoTitle, time, text, now)
  {
    if videoId !in store && videoId in InheritedNames then Err(MalformedRecord)
    else SaveNote(store, videoId, videoTitle, time, text, now)
  }

  /** `v=constructor` fits the 11-character id alphabet, yet the first note
      for it cannot be saved as written; the intended save creates the record. */
  lemma InheritedIdCannotBeSaved()
    ensures SaveNoteAsWritten(map[], "constructor", "T", 0, "x", 0) == Err(MalformedRecord)
    ensures SaveNote(map[], "constructor", "T", 0, "x", 0).Ok?
  {
    assert "constructor" in InheritedNames;
  }

  /** Adding to a time-sorted list: the new note lands right after every
      existing note whose time is at most its own, and the existing notes keep
      their relative order. */
  lemma AddNoteLanding(store: Store, videoId: string, videoTitle: string, n: Note)
    requires videoId !in store || store[videoId].notes.Some?
    requires SortedBy(NotesBefore(store, videoId), TimeOf)
    ensures var before := NotesBefore(store, videoId);
            var j := Landing(before, n, TimeOf);
            && AddNote(store, videoId, videoTitle, n).Ok?
            && AddNote(store, videoId, videoTitle, n).value[videoId].notes
               == Some(before[..j] + [n] + before[j..])
            && (forall i :: 0 <= i < j ==> before[i].time <= n.time)
            && (forall i :: j <= i < |before| ==> before[i].time > n.time)
  {
    var before := NotesBefore(store, videoId);
    AddNoteSorts(store, videoId, videoTitle, n);
    SortSortedPlusOne(before, n, TimeOf);
    LandingSplits(before, n, TimeOf);
  }

  lemma AddNoteSorts(store: Store, videoId: string, videoTitle: string, n: Note)
    requires videoId !in store || store[videoId].notes.Some?
    ensures AddNote(store, videoId, videoTitle, n).Ok?
    ensures AddNote(store, videoId, videoTitle, n).value[videoId].notes
            == Some(SortBy(NotesBefore(store, videoId) + [n], TimeOf))
  {
  }

  /** Adding keeps the store invariant and never fails on a well-formed store. */
  lemma AddPreservesWellFormed(store: Store, videoId: string, videoTitle: string, n: Note)
    requires WellFormed(store)
    ensures AddNote(store, videoId, videoTitle, n).Ok?
    ensures WellFormed(AddNote(store, videoId, videoTitle, n).value)
  {
    var r := AddNote(store, videoId, videoTitle, n).value;
    assert n in multiset(r[videoId].notes.value);
    forall id | id in r
      ensures r[id].notes.Some? && r[id].notes.value != [] && SortedBy(r[id].notes.value, TimeOf)
    {
      if id != videoId {
        assert r[id] == store[id];
      }
    }
  }

  /** `deleteNote(videoId, noteIndex)`: fails when the record, its notes, or
      `notes[noteIndex]` is missing (any index outside the list, negative ones
      included); otherwise removes that one note, and removes the whole key
      when no note is left. */
  function DeleteNote(store: Store, videoId: string, index: int): (r: Result<Store>)
    ensures r.Err? <==> !(videoId in store && store[videoId].notes.Some?
                          && 0 <= index < |store[videoId].notes.value|)
    ensures r.Err? ==> r.error == NotFound
    ensures r.Ok? ==>
      var before := store[videoId].notes.value;
      && r.value.Keys == (if |before| == 1 then store.Keys - {videoId} else store.Keys)
      && (forall id :: id in store && id != videoId ==> r.value[id] == store[id])
      && (videoId in r.value ==>
            && r.value[videoId].title == store[videoId].title
            && r.value[videoId].notes.Some?
            && var rest := r.value[videoId].notes.value;
               && |rest| == |before| - 1
               && (forall i :: 0 <= i < index ==> rest[i] == before[i])
               && (forall i :: index <= i < |rest| ==> rest[i] == before[i + 1]))
  {
    if videoId !in store || store[videoId].notes.None? then Err(NotFound)
    else
      var before := store[videoId].notes.value;
      if !(0 <= index < |before|) then Err(NotFound)
      else
        var rest := before[..index] + before[index + 1..];
        if rest == [] then Ok(map id | id in store && id != videoId :: store[id])
        else Ok(store[videoId := store[videoId].(notes := Some(rest))])
  }

  /** Deleting removes exactly the one note at the index. */
  lemma DeleteRemovesOne(store: Store, videoId: string, index: int)
    requires DeleteNote(store, videoId, index).Ok?
    ensures var before := store[videoId].notes.value;
            var after := DeleteNote(store, videoId, index).value;
            multiset(NotesBefore(after, videoId)) + multiset{before[index]} == multiset(before)
  {
    var before := store[videoId].notes.value;
    assert before == before[..index] + [before[index]] + before[index + 1..];
  }

  /** Deleting keeps the store invariant: the shrunk list stays sorted and no
      empty record is left behind. */
  lemma DeletePreservesWellFormed(store: Store, videoId: string, index: int)
    requires WellFormed(store)
    requires DeleteNote(store, videoId, index).Ok?
    ensures WellFormed(DeleteNote(store, videoId, index).value)
  {
    var after := DeleteNote(store, videoId, index).value;
    if videoId in after {
      var before, rest := store[videoId].notes.value, after[videoId].notes.value;
      forall i, j | 0 <= i < j < |rest| ensures TimeOf(rest[i]) <= TimeOf(rest[j]) {
        var i', j' := if i < index then i else i + 1, if j < index then j else j + 1;
        assert rest[i] == before[i'] && rest[j] == before[j'];
      }
    }
  }

  /** Deleting the note an add has just placed undoes the add, provided the
      title did not change: `deleteNote` is the inverse of `saveNote`. */
  lemma DeleteUndoesAdd(store: Store, videoId: string, videoTitle: string, n: Note)
    requires WellFormed(store)
    requires videoId in store ==> store[videoId].title == Some(videoTitle)
    ensures var j := Landing(NotesBefore(store, videoId), n, TimeOf);
            DeleteNote(AddNote(store, videoId, videoTitle, n).value, videoId, j) == Ok(store)
  {
    if videoId in store {
      UndoAddToExisting(store, videoId, videoTitle, n);
    } else {
      UndoAddToNew(store, videoId, videoTitle, n);
    }
  }

  lemma UndoAddToExisting(store: Store, videoId: string, videoTitle: string, n: Note)
    requires videoId in store && store[videoId].title == Some(videoTitle)
    requires store[videoId].notes.Some? && store[videoId].notes.value != []
    requires SortedBy(store[videoId].notes.value, TimeOf)
    ensures var j := Landing(store[videoId].notes.value, n, TimeOf);
            DeleteNote(AddNote(store, videoId, videoTitle, n).value, videoId, j) == Ok(store)
  {
    var before := store[videoId].notes.value;
    var j := Landing(before, n, TimeOf);
    AddNoteLanding(store, videoId, videoTitle, n);
    RemoveInserted(before, n, j);
    DeleteRestores(store, AddNote(store, videoId, videoTitle, n).value, videoId, j);
  }

  lemma UndoAddToNew(store: Store, videoId: string, videoTitle: string, n: Note)
    requires videoId !in store
    ensures DeleteNote(AddNote(store, videoId, videoTitle, n).value, videoId, 0) == Ok(store)
  {
    DeleteDropsNew(store, AddNote(store, videoId, videoTitle, n).value, videoId);
  }

  lemma RemoveInserted<T>(s: seq<T>, x: T, j: nat)
    requires j <= |s|
    ensures var t := s[..j] + [x] + s[j..]; t[..j] + t[j + 1..] == s
  {
    var t := s[..j] + [x] + s[j..];
    assert t[..j] == s[..j];
    assert t[j + 1..] == s[j..];
    assert s == s[..j] + s[j..];
  }

  /** Removing the added note from a video that already had notes gives back its old record. */
  lemma DeleteRestores(store: Store, added: Store, videoId: string, j: nat)
    requires videoId in store && store[videoId].notes.Some? && store[videoId].notes.value != []
    requires added.Keys == store.Keys
    requires forall id :: id in store && id != videoId ==> added[id] == store[id]
    requires added[videoId].title == store[videoId].title
    requires added[videoId].notes.Some? && j < |added[videoId].notes.value|
    requires var t := added[videoId].notes.value; t[..j] + t[j + 1..] == store[videoId].notes.value
    ensures DeleteNote(added, videoId, j) == Ok(store)
  {
    var t := added[videoId].notes.value;
    var rest := t[..j] + t[j + 1..];
    assert rest != [];
    var after := added[videoId := added[videoId].(notes := Some(rest))];
    assert DeleteNote(added, videoId, j) == Ok(after);
    assert after[videoId] == store[videoId];
    assert forall id :: id in after ==> after[id] == store[id];
    assert after.Keys == store.Keys;
    assert after == store;
  }

  /** Removing the only note of a video that had no record removes its key again. */
  lemma DeleteDropsNew(store: Store, added: Store, videoId: string)
    requires videoId !in store
    requires added.Keys == store.Keys + {videoId}
    requires forall id :: id in store ==> added[id] == store[id]
    requires added[videoId].notes.Some? && |added[videoId].notes.value| == 1
    ensures DeleteNote(added, videoId, 0) == Ok(store)
  {
    var after := map id | id in added && id != videoId :: added[id];
    assert DeleteNote(added, videoId, 0) == Ok(after);
    assert forall id :: id in after ==> after[id] == store[id];
    assert after.Keys == store.Keys;
    assert after == store;
  }

  /** `saveNote` keeps the store invariant. */
  lemma SavePreservesWellFormed(store: Store, videoId: string, videoTitle: string, time: nat, text: string, now: nat)
    requires WellFormed(store)
    ensures SaveNote(store, videoId, videoTitle, time, text, now).Ok?
    ensures WellFormed(SaveNote(store, videoId, videoTitle, time, text, now).value)
  {
    AddPreservesWellFormed(store, videoId, videoTitle, NewNote(time, text, now));
  }

  /** `deleteNote` at the index where `saveNote` placed the note undoes the save. */
  lemma DeleteUndoesSave(store: Store, videoId: string, videoTitle: string, time: nat, text: string, now: nat)
    requires WellFormed(store)
    requires videoId in store ==> store[videoId].title == Some(videoTitle)
    ensures var j := Landing(NotesBefore(store, videoId), NewNote(time, text, now), TimeOf);
            DeleteNote(SaveNote(store, videoId, videoTitle, time, text, now).value, videoId, j) == Ok(store)
  {
    DeleteUndoesAdd(store, videoId, videoTitle, NewNote(time, text, now));
  }

  /** A session on one video: a note at 0:42, then an earlier one at 0:10 goes
      in front of it; deleting index 0 removes the 0:10 note, and deleting the
      last note removes the video's key. */
  lemma WorkedSession()
    ensures var intro, start := NewNote(42, "intro", 1), NewNote(10, "start", 2);
            var s1 := SaveNote(map[], "abc", "T", 42, "intro", 1);
            && s1 == Ok(map["abc" := Record(Some("T"), Some([intro]))])
            && var s2 := SaveNote(s1.value, "abc", "T", 10, "start", 2);
               && s2 == Ok(map["abc" := Record(Some("T"), Some([start, intro]))])
               && var s3 := DeleteNote(s2.value, "abc", 0);
                  && s3 == Ok(map["abc" := Record(Some("T"), Some([intro]))])
                  && DeleteNote(s3.value, "abc", 0) == Ok(map[])
    ensures NewNote(42, "intro", 1).stamp == Some("00:42")
  {
    FormatTimeOfFortyTwo();
    var intro, start := NewNote(42, "intro", 1), NewNote(10, "start", 2);
    var one := map["abc" := Record(Some("T"), Some([intro]))];
    var two := map["abc" := Record(Some("T"), Some([start, intro]))];
    assert SaveNote(map[], "abc", "T", 42, "intro", 1) == Ok(one);
    AddInFront(intro, start);
    assert SaveNote(one, "abc", "T", 10, "start", 2) == Ok(two);
    DeleteFront(intro, start);
    DeleteOnly(intro);
  }

  lemma AddInFront(a: Note, b: Note)
    requires b.time < a.time
    ensures AddNote(map["abc" := Record(Some("T"), Some([a]))], "abc", "T", b)
            == Ok(map["abc" := Record(Some("T"), Some([b, a]))])
  {
    var one := map["abc" := Record(Some("T"), Some([a]))];
    AddNoteValue(one, "abc", "T", b);
    SortSortedPlusOne([a], b, TimeOf);
    assert Landing([a], b, TimeOf) == 0;
    assert [a][..0] + [b] + [a][0..] == [b, a];
    SingleRecord(one["abc" := Record(Some("T"), Some([b, a]))], "abc", Record(Some("T"), Some([b, a])));
  }

  /** On a record with a notes array, the add writes the sorted notes and the new title. */
  lemma AddNoteValue(store: Store, videoId: string, videoTitle: string, n: Note)
    requires videoId in store && store[videoId].notes.Some?
    ensures AddNote(store, videoId, videoTitle, n)
            == Ok(store[videoId := Record(Some(videoTitle), Some(SortBy(store[videoId].notes.value + [n], TimeOf)))])
  {
  }

  /** A store with exactly one key is the one-entry map of that key's record. */
  lemma SingleRecord(r: Store, id: string, rec: Record)
    requires r.Keys == {id} && r[id] == rec
    ensures r == map[id := rec]
  {
  }

  lemma DeleteFront(a: Note, b: Note)
    ensures DeleteNote(map["abc" := Record(Some("T"), Some([b, a]))], "abc", 0)
            == Ok(map["abc" := Record(Some("T"), Some([a]))])
  {
    var two := map["abc" := Record(Some("T"), Some([b, a]))];
    var one := map["abc" := Record(Some("T"), Some([a]))];
    assert [b, a][..0] + [b, a][1..] == [a];
    var after := two["abc" := two["abc"].(notes := Some([a]))];
    assert after.Keys == one.Keys;
    assert after == one;
  }

  lemma DeleteOnly(a: Note)
    ensures DeleteNote(map["abc" := Record(Some("T"), Some([a]))], "abc", 0) == Ok(map[])
  {
    var one := map["abc" := Record(Some("T"), Some([a]))];
    var after := map id | id in one && id != "abc" :: one[id];
    assert after.Keys == {};
    assert after == map[];
  }
}

=== FILE: outcomes.dfy ===
/** Failure-carrying values shared by every surface of the notes extension.
    `Option` stands for JavaScript's absent / null / undefined; `Result` stands
    for an async call that either resolves with a value or rejects. */
module Outcomes {

  datatype Option<+T> = None | Some(value: T)

  /** Why an operation was rejected; each case is one `throw` site in the extension. */
  datatype Failure =
    | NotFound                    // deleteNote: the record or notes[index] is missing
    | MalformedRecord             // saveNote: the stored record has no notes array to push onto
    | NotWatchPage                // popup: the active tab is not a watch page
    | NoVideoInfo(message: string) // popup: the overlay gave no usable answer
    | EmptyText                   // save handlers: the note text is blank after trimming

  datatype Result<+T> = Ok(value: T) | Err(error: Failure)
}

=== FILE: overlay.dfy ===
/** The page overlay's decisions (content.js): whether an insertion point
    sits inside an SVG subtree, the video title taken from the document
    title, the answer to the popup's `getVideoInfo` message, and the
    render/retry bookkeeping that decides when the note list is redrawn. */
module Overlay {
  import opened Outcomes
  import opened Text

  // ---------------------------------------------------------------------
  // isInsideSVG

  /** An element as the ancestor walk sees it: its `tagName`, and whether it
      is `document.body`. */
  datatype Node = Node(tagName: string, isBody: bool)

  /** Where the walk up a path (the element, then its parents in order) stops:
      at the first `body`, or past the root. */
  function BodyIndex(path: seq<Node>): (b: nat)
    ensures b <= |path|
    ensures forall i :: 0 <= i < b ==> !path[i].isBody
    ensures b < |path| ==> path[b].isBody
  {
    if path == [] || path[0].isBody then 0 else 1 + BodyIndex(path[1..])
  }

  /** Some element of the path strictly below `body` has a tag `matches` accepts. */
  predicate SomeBelowBody(path: seq<Node>, matches: string -> bool) {
    exists k :: 0 <= k < BodyIndex(path) && matches(path[k].tagName)
  }

  /** The walk of `isInsideSVG`: `false` for no element; otherwise climb from
      the element through `parentElement` until `body` or the root, answering
      `true` at the first tag `matches` accepts. */
  method WalkUp(element: Option<Node>, ancestors: seq<Node>, matches: string -> bool) returns (found: bool)
    ensures found <==> element.Some? && SomeBelowBody([element.value] + ancestors, matches)
  {
    if element.None? {
      return false;
    }
    var path := [element.value] + ancestors;
    var i := 0;
    while i < |path| && !path[i].isBody
      invariant 0 <= i <= BodyIndex(path)
      invariant forall k :: 0 <= k < i ==> !matches(path[k].tagName)
    {
      if matches(path[i].tagName) {
        return true;
      }
      i := i + 1;
    }
    return false;
  }

  /** The comparison as written: `tagName === 'SVG' || tagName === 'DEFS'`. */
  predicate IsSvgTagAsWritten(tagName: string) {
    tagName == "SVG" || tagName == "DEFS"
  }

  /** `isInsideSVG` as written. */
  method IsInsideSvgAsWritten(element: Option<Node>, ancestors: seq<Node>) returns (inside: bool)
    ensures inside <==> element.Some? && SomeBelowBody([element.value] + ancestors, IsSvgTagAsWritten)
  {
    inside := WalkUp(element, ancestors, IsSvgTagAsWritten);
  }

  /** ASCII upper-casing, as `tagName` applies to HTML elements. */
  function AsciiUpper(s: string): (r: string)
    ensures |r| == |s|
    ensures forall i :: 0 <= i < |s| ==>
      r[i] == if 'a' <= s[i] <= 'z' then (s[i] as int - 32) as char else s[i]
  {
    if s == [] then []
    else [if 'a' <= s[0] <= 'z' then (s[0] as int - 32) as char else s[0]] + AsciiUpper(s[1..])
  }

  /** The intended comparison: an `svg` or `defs` element whatever the case
      of its `tagName` (SVG elements in an HTML page report `svg`, `defs`). */
  predicate IsSvgTag(tagName: string) {
    AsciiUpper(tagName) == "SVG" || AsciiUpper(tagName) == "DEFS"
  }

  /** `isInsideSVG` with the case-insensitive comparison. */
  method IsInsideSvg(element: Option<Node>, ancestors: seq<Node>) returns (inside: bool)
    ensures inside <==> element.Some? && SomeBelowBody([element.value] + ancestors, IsSvgTag)
    ensures element.None? ==> !inside
  {
    inside := WalkUp(element, ancestors, IsSvgTag);
  }

  /** The corrected test accepts everything the written one does. */
  lemma SvgTestWidens(path: seq<Node>)
    ensures SomeBelowBody(path, IsSvgTagAsWritten) ==> SomeBelowBody(path, IsSvgTag)
  {
    if SomeBelowBody(path, IsSvgTagAsWritten) {
      var k :| 0 <= k < BodyIndex(path) && IsSvgTagAsWritten(path[k].tagName);
      AsciiUpperOfUpper(path[k].tagName);
    }
  }

  lemma AsciiUpperOfUpper(s: string)
    requires s == "SVG" || s == "DEFS"
    ensures AsciiUpper(s) == s
  {
  }

  /** A `<path>` inside an `<svg>` of an HTML page: the written comparison
      misses the `svg` ancestor, the corrected one finds it. */
  lemma SvgCaseMissed()
    ensures var path := [Node("path", false), Node("svg", false), Node("DIV", false), Node("BODY", true)];
            && !SomeBelowBody(path, IsSvgTagAsWritten)
            && SomeBelowBody(path, IsSvgTag)
  {
    var path := [Node("path", false), Node("svg", false), Node("DIV", false), Node("BODY", true)];
    assert BodyIndex(path) == 3 by {
      assert path[1..][1..][1..][0].isBody;
    }
    assert AsciiUpper("svg") == "SVG";
    assert IsSvgTag(path[1].tagName);
  }

  // ---------------------------------------------------------------------
  // The video title

  const YouTubeSuffix: string := " - YouTube"

  /** `document.title.replace(' - YouTube', '').trim()`: the first copy of
      the suffix is cut out (later copies stay), then the ends are trimmed. */
  function DeriveTitle(documentTitle: string): (r: string)
    ensures r == [] || (!IsJsWhitespace(r[0]) && !IsJsWhitespace(r[|r| - 1]))
    ensures (forall k :: !OccursAt(documentTitle, YouTubeSuffix, k)) ==> r == Trim(documentTitle)
  {
    Trim(ReplaceFirst(documentTitle, YouTubeSuffix, ""))
  }

  /** The suffix cannot begin inside an earlier copy of itself that ends
      within it: it has no proper border. */
  lemma SuffixNoOverlap(d: nat)
    requires 0 < d < |YouTubeSuffix|
    ensures YouTubeSuffix[d] != YouTubeSuffix[0] || YouTubeSuffix[d + 1] != YouTubeSuffix[1]
  {
  }

  /** A title `t` (free of the suffix) followed by the suffix and anything
      else: only that first suffix is removed. */
  lemma ReplaceFirstSuffix(t: string, rest: string)
    requires forall k :: !OccursAt(t, YouTubeSuffix, k)
    ensures ReplaceFirst(t + YouTubeSuffix + rest, YouTubeSuffix, "") == t + rest
  {
    var s := t + YouTubeSuffix + rest;
    var n := |t|;
    assert s[n..n + |YouTubeSuffix|] == YouTubeSuffix;
    forall k | 0 <= k < n ensures !OccursAt(s, YouTubeSuffix, k) {
      NotBeforeSuffix(t, rest, k);
    }
    FindFirstIs(s, YouTubeSuffix, n);
    assert s[..n] == t;
    assert s[n + |YouTubeSuffix|..] == rest;
  }

  lemma NotBeforeSuffix(t: string, rest: string, k: nat)
    requires forall k :: !OccursAt(t, YouTubeSuffix, k)
    requires k < |t|
    ensures !OccursAt(t + YouTubeSuffix + rest, YouTubeSuffix, k)
  {
    var s := t + YouTubeSuffix + rest;
    var n := |t|;
    if k + |YouTubeSuffix| <= n {
      assert s[k..k + |YouTubeSuffix|] == t[k..k + |YouTubeSuffix|];
      assert !OccursAt(t, YouTubeSuffix, k);
    } else {
      var d := n - k;
      SuffixNoOverlap(d);
      assert s[n] == YouTubeSuffix[0] && s[n + 1] == YouTubeSuffix[1];
    }
  }

  /** Where the suffix first occurs, that copy alone is cut out before trimming. */
  lemma DeriveTitleCutsFirstSuffix(documentTitle: string, i: nat)
    requires OccursAt(documentTitle, YouTubeSuffix, i)
    requires forall k :: 0 <= k < i ==> !OccursAt(documentTitle, YouTubeSuffix, k)
    ensures DeriveTitle(documentTitle) == Trim(documentTitle[..i] + documentTitle[i + |YouTubeSuffix|..])
  {
    var cut := ReplaceFirst(documentTitle, YouTubeSuffix, "");
    assert cut == documentTitle[..i] + "" + documentTitle[i + |YouTubeSuffix|..];
    assert documentTitle[..i] + "" == documentTitle[..i];
  }

  /** The page title of a watch page, "<title> - YouTube", yields the trimmed title. */
  lemma DeriveTitleOfWatchPage(t: string)
    requires forall k :: !OccursAt(t, YouTubeSuffix, k)
    ensures DeriveTitle(t + YouTubeSuffix) == Trim(t)
  {
    ReplaceFirstSuffix(t, []);
    assert t + YouTubeSuffix + [] == t + YouTubeSuffix;
    assert t + [] == t;
  }

  // ---------------------------------------------------------------------
  // The getVideoInfo message

  /** What the popup learns about the playing video. */
  datatype VideoInfo = VideoInfo(videoId: string, currentTime: nat, videoTitle: string)

  /** A message response: an `error` field, the video fields, or neither. */
  datatype Response = Response(error: Option<string>, info: Option<VideoInfo>)

  const NoVideoMessage: string := "動画が見つかりません"

  /** A video id is usable when it is present and not empty (truthy). */
  predicate Present(videoId: Option<string>) {
    videoId.Some? && videoId.value != ""
  }

  /** The `getVideoInfo` branch of the message listener: an error when the
      page has no video element or no `v` parameter, otherwise the id, the
      playback position and the derived title. */
  function HandleGetVideoInfo(videoId: Option<string>, hasVideo: bool, currentTime: nat, documentTitle: string)
    : (r: Response)
    ensures r.error.Some? <==> !(hasVideo && Present(videoId))
    ensures r.error.Some? ==> r.error.value == NoVideoMessage && r.info.None?
    ensures r.error.None? ==> r.info == Some(VideoInfo(videoId.value, currentTime, DeriveTitle(documentTitle)))
  {
    if !hasVideo || !Present(videoId) then Response(Some(NoVideoMessage), None)
    else Response(None, Some(VideoInfo(videoId.value, currentTime, DeriveTitle(documentTitle))))
  }

  // ---------------------------------------------------------------------
  // Render/retry bookkeeping of initContentScript

  const MaxAttempts: nat := 10

  /** The closure state: the id last rendered, the tries of the current
      retry chain, and the URL last seen. */
  datatype Tracker = Tracker(lastVideoId: Option<string>, attempts: nat, lastUrl: string)

  /** What a step asks for: redraw the note list now, and/or schedule a
      `tryRender` (after 500 ms; timers are not modelled). */
  datatype Effect = Effect(render: bool, scheduleTry: bool)

  const Quiet: Effect := Effect(false, false)

  /** The triggers: a `tryRender` run (seeing the current `v` parameter and
      whether a video element exists), a `checkUrlChange` run (from the
      mutation observer or the patched `pushState`/`replaceState`), a
      `popstate`, and the 2-second interval. */
  datatype Event =
    | TryRender(videoId: Option<string>, hasVideo: bool)
    | UrlCheck(url: string, videoId: Option<string>)
    | PopState(url: string)
    | IntervalTick(url: string, videoId: Option<string>)

  /** The start state; the first `tryRender` is scheduled at once. */
  function Start(url: string): Tracker {
    Tracker(None, 0, url)
  }

  /** `lastVideoId = null; attempts = 0`. */
  function Reset(t: Tracker): Tracker {
    t.(lastVideoId := None, attempts := 0)
  }

  predicate IsWatchUrl(url: string) {
    Contains(url, "/watch")
  }

  /** `videoId !== lastVideoId` for a usable id. */
  predicate IsNewId(t: Tracker, videoId: Option<string>) {
    Present(videoId) && Some(videoId.value) != t.lastVideoId
  }

  /** One trigger of `initContentScript`. Only a `tryRender` counts a try,
      and only it can redraw; it never both redraws and reschedules. Every
      other trigger either does nothing or restarts the chain with the last id
      forgotten. The remembered id stays usable. */
  function Step(t: Tracker, ev: Event): (r: (Tracker, Effect))
    ensures Valid(t) ==> Valid(r.0)
    ensures !(r.1.render && r.1.scheduleTry)
    ensures r.1.render ==> ev.TryRender? && r.0.lastVideoId == ev.videoId
    ensures ev.TryRender? ==> r.0.attempts == t.attempts + 1 && r.0.lastUrl == t.lastUrl
    ensures ev.TryRender? && !r.1.render ==> r.0.lastVideoId == t.lastVideoId
    ensures ev.TryRender? && Present(ev.videoId) && ev.hasVideo ==> !r.1.scheduleTry
    ensures !ev.TryRender? ==> !r.1.render
    ensures !ev.TryRender? && r.1.scheduleTry ==> r.0.lastVideoId.None? && r.0.attempts == 0
    ensures !ev.TryRender? && !r.1.scheduleTry ==> r.0 == t
  {
    match ev
    case TryRender(videoId, hasVideo) =>
      var tried := t.(attempts := t.attempts + 1);
      if Present(videoId) && hasVideo then
        if IsNewId(t, videoId) then (tried.(lastVideoId := videoId), Effect(true, false))
        else (tried, Quiet)
      else if tried.attempts < MaxAttempts then (tried, Effect(false, true))
      else (tried, Quiet)
    case UrlCheck(url, videoId) =>
      if url != t.lastUrl && IsWatchUrl(url) then (Reset(t).(lastUrl := url), Effect(false, true))
      else if IsWatchUrl(url) && IsNewId(t, videoId) then (Reset(t), Effect(false, true))
      else (t, Quiet)
    case PopState(url) =>
      (Reset(t).(lastUrl := url), Effect(false, true))
    case IntervalTick(url, videoId) =>
      if IsNewId(t, videoId) && IsWatchUrl(url) then (Reset(t), Effect(false, true))
      else (t, Quiet)
  }

  /** Rendering happens only on a `tryRender` that sees a usable id and a
      video element, and exactly when that id differs from the last rendered
      one; the id is then remembered. */
  lemma RenderOnlyOnNewId(t: Tracker, ev: Event)
    ensures Step(t, ev).1.render <==> ev.TryRender? && ev.hasVideo && IsNewId(t, ev.videoId)
    ensures Step(t, ev).1.render ==> Step(t, ev).0.lastVideoId == ev.videoId
  {
  }

  /** A failed `tryRender` schedules another exactly while the chain has made
      fewer than `MaxAttempts` tries. */
  lemma RetryWhileBelowMax(t: Tracker, videoId: Option<string>, hasVideo: bool)
    requires !(Present(videoId) && hasVideo)
    ensures var (after, eff) := Step(t, TryRender(videoId, hasVideo));
            && after.attempts == t.attempts + 1
            && (eff.scheduleTry <==> t.attempts + 1 < MaxAttempts)
            && !eff.render
            && after.lastVideoId == t.lastVideoId
  {
  }

  /** The remembered id is never the empty string. */
  predicate Valid(t: Tracker) {
    t.lastVideoId.Some? ==> t.lastVideoId.value != ""
  }

  /** The script starts with no id remembered and no try made, so the first
      try that finds a usable id and a video redraws. */
  lemma StartRendersFirstVideo(url: string, videoId: Option<string>)
    requires Present(videoId)
    ensures Valid(Start(url)) && Start(url).attempts == 0 && Start(url).lastUrl == url
    ensures var (after, eff) := Step(Start(url), TryRender(videoId, true));
            eff.render && !eff.scheduleTry && after.lastVideoId == videoId && after.attempts == 1
  {
  }

  /** Every event other than `tryRender` that schedules a try has forgotten
      the last id and restarted the chain, so the try it schedules redraws
      as soon as it sees a usable id and a video. */
  lemma ResetForcesRender(t: Tracker, ev: Event, videoId: Option<string>)
    requires !ev.TryRender? && Step(t, ev).1.scheduleTry
    requires Present(videoId)
    ensures Step(t, ev).0.lastVideoId.None? && Step(t, ev).0.attempts == 0
    ensures Step(Step(t, ev).0, TryRender(videoId, true)).1.render
  {
  }

  /** `checkUrlChange` restarts the chain exactly on a watch page whose URL
      differs from the remembered one or whose usable id differs from the last
      rendered one; the URL is remembered then. Otherwise nothing changes. */
  lemma UrlCheckTrigger(t: Tracker, url: string, videoId: Option<string>)
    ensures var (after, eff) := Step(t, UrlCheck(url, videoId));
            && (eff.scheduleTry <==> IsWatchUrl(url) && (url != t.lastUrl || IsNewId(t, videoId)))
            && (eff.scheduleTry ==> after == Reset(t).(lastUrl := url) && !eff.render)
            && (!eff.scheduleTry ==> after == t && eff == Quiet)
  {
  }

  /** A `popstate` always restarts the chain and remembers the new URL,
      whatever the page. */
  lemma PopStateTrigger(t: Tracker, url: string)
    ensures var (after, eff) := Step(t, PopState(url));
            && eff.scheduleTry && !eff.render
            && after.lastVideoId.None? && after.attempts == 0 && after.lastUrl == url
  {
  }

  /** The 2-second interval restarts the chain exactly on a watch page whose
      usable id differs from the last rendered one; it never touches the
      remembered URL. Otherwise nothing changes. */
  lemma IntervalTickTrigger(t: Tracker, url: string, videoId: Option<string>)
    ensures var (after, eff) := Step(t, IntervalTick(url, videoId));
            && (eff.scheduleTry <==> IsNewId(t, videoId) && IsWatchUrl(url))
            && (eff.scheduleTry ==> after == Reset(t) && !eff.render)
            && (!eff.scheduleTry ==> after == t && eff == Quiet)
  {
  }

  /** Off a watch page, URL checks and interval ticks change nothing; in
      particular the remembered URL is kept. */
  lemma OffWatchPageQuiet(t: Tracker, url: string, videoId: Option<string>)
    requires !IsWatchUrl(url)
    ensures Step(t, UrlCheck(url, videoId)) == (t, Quiet)
    ensures Step(t, IntervalTick(url, videoId)) == (t, Quiet)
  {
  }

  /** A chain of `tryRender`s that never find the video: the tries it makes
      before it stops rescheduling. After a reset that is exactly
      `MaxAttempts`; a chain never makes more. */
  method FailingChain(t: Tracker) returns (tries: nat, final: Tracker)
    ensures tries == if t.attempts < MaxAttempts then MaxAttempts - t.attempts else 1
    ensures 1 <= tries <= MaxAttempts
    ensures final.attempts == t.attempts + tries
    ensures final.lastVideoId == t.lastVideoId && final.lastUrl == t.lastUrl
  {
    var step := Step(t, TryRender(None, false));
    final, tries := step.0, 1;
    var again := step.1.scheduleTry;
    while again
      invariant final.attempts == t.attempts + tries
      invariant again <==> final.attempts < MaxAttempts
      invariant final.lastVideoId == t.lastVideoId && final.lastUrl == t.lastUrl
      invariant t.attempts < MaxAttempts ==> tries <= MaxAttempts - t.attempts
      invariant t.attempts >= MaxAttempts ==> tries == 1
      decreases MaxAttempts - final.attempts
    {
      step := Step(final, TryRender(None, false));
      final, tries := step.0, tries + 1;
      again := step.1.scheduleTry;
    }
  }
}

=== FILE: overview.dfy ===
/** The management page (options.js): every note of every video read from
    the store, flattened into annotated entries, newest first; grouped by
    video for display, each group in playback order; and the jump URL a
    timestamp button opens. */
module Overview {
  import opened Outcomes
  import opened Decimal
  import opened TimeFormat
  import opened StableSort
  import opened NoteStore

  /** The title shown for a record without a usable title ("unknown title"). */
  const UnknownTitle: string := "タイトル不明"

  /** One note as the management page sees it, with the defaults filled in. */
  datatype Entry = Entry(videoId: string, videoTitle: string, time: nat, text: string,
                         stamp: string, createdAt: nat)

  /** What `chrome.storage.local.get(null)` hands to `Object.entries`: the
      stored records as `[videoId, record]` pairs in enumeration order. */
  type Listing = seq<(string, Record)>

  /** The read either resolves with the listing or rejects. */
  datatype StoreRead = ReadOk(listing: Listing) | ReadFailed

  /** `videoData.title || 'タイトル不明'`: the empty string is falsy too. */
  function TitleOrDefault(title: Option<string>): (t: string)
    ensures t != ""
    ensures title.Some? && title.value != "" ==> t == title.value
    ensures title.None? || title.value == "" ==> t == UnknownTitle
  {
    if title.Some? && title.value != "" then title.value else UnknownTitle
  }

  /** The entry pushed for note `n` of the record stored under `videoId`,
      with `timestamp_text || formatTime(time)` and `createdAt || 0`: it keeps
      the note's time and text and its parent's id; a stored label is shown
      as stored, and a missing or empty one is replaced by the note's
      formatted time; a missing creation time reads as 0. */
  function Annotate(videoId: string, title: Option<string>, n: Note): (e: Entry)
    ensures e.videoId == videoId && e.time == n.time && e.text == n.text
    ensures e.videoTitle == TitleOrDefault(title)
    ensures n.stamp.Some? && n.stamp.value != "" ==> e.stamp == n.stamp.value
    ensures n.stamp.None? || n.stamp.value == "" ==> e.stamp == FormatTime(n.time)
    ensures n.createdAt.None? ==> e.createdAt == 0
    ensures n.createdAt.Some? ==> e.createdAt == n.createdAt.value
  {
    Entry(videoId, TitleOrDefault(title), n.time, n.text,
          if n.stamp.Some? && n.stamp.value != "" then n.stamp.value else FormatTime(n.time),
          if n.createdAt.Some? then n.createdAt.value else 0)
  }

  /** `videoData.notes.forEach(note => notes.push(...))`, in order. */
  function AnnotateAll(videoId: string, title: Option<string>, notes: seq<Note>): (es: seq<Entry>)
    ensures |es| == |notes|
    ensures forall i :: 0 <= i < |notes| ==> es[i] == Annotate(videoId, title, notes[i])
  {
    if notes == [] then [] else [Annotate(videoId, title, notes[0])] + AnnotateAll(videoId, title, notes[1..])
  }

  /** The entries one record contributes: none unless its `notes` is an array. */
  function EntriesOf(videoId: string, rec: Record): seq<Entry> {
    if rec.notes.None? then [] else AnnotateAll(videoId, rec.title, rec.notes.value)
  }

  /** How many entries a record contributes. */
  function RecordCount(rec: Record): nat {
    if rec.notes.Some? then |rec.notes.value| else 0
  }

  /** How many notes the records with a notes array hold together. */
  function NoteCount(listing: Listing): nat {
    if listing == [] then 0 else RecordCount(listing[0].1) + NoteCount(listing[1..])
  }

  /** Where the entries of the `k`-th listed record begin in the flattening. */
  function Offset(listing: Listing, k: nat): nat
    requires k <= |listing|
  {
    NoteCount(listing[..k])
  }

  /** The loop over `Object.entries(allData)`: the records' entries, record by record. */
  function Flatten(listing: Listing): (es: seq<Entry>)
    ensures |es| == NoteCount(listing)
  {
    if listing == [] then [] else EntriesOf(listing[0].0, listing[0].1) + Flatten(listing[1..])
  }

  /** Flattening a listing in two parts flattens each part in turn. */
  lemma {:induction false} FlattenAppend(a: Listing, b: Listing)
    ensures Flatten(a + b) == Flatten(a) + Flatten(b)
  {
    if a != [] {
      assert (a + b)[0] == a[0] && (a + b)[1..] == a[1..] + b;
      FlattenAppend(a[1..], b);
      assert Flatten(a + b) == EntriesOf(a[0].0, a[0].1) + Flatten(a[1..] + b);
    } else {
      assert a + b == b;
    }
  }

  /** The flattening is record by record and note by note: the entries of the
      `k`-th record follow those of the records before it, one per note of its
      notes array (none without one), each annotating the note at the same
      position. */
  lemma FlattenPositions(listing: Listing, k: nat)
    requires k < |listing|
    ensures Offset(listing, k + 1) == Offset(listing, k) + RecordCount(listing[k].1)
    ensures Offset(listing, k + 1) <= |Flatten(listing)|
    ensures forall i :: 0 <= i < RecordCount(listing[k].1) ==>
              Flatten(listing)[Offset(listing, k) + i]
              == Annotate(listing[k].0, listing[k].1.title, listing[k].1.notes.value[i])
  {
    var before, rest := listing[..k], listing[k + 1..];
    assert listing == before + ([listing[k]] + rest);
    assert listing[..k + 1] == before + [listing[k]];
    FlattenAppend(before, [listing[k]] + rest);
    FlattenAppend([listing[k]], rest);
    FlattenAppend(before, [listing[k]]);
    assert Flatten([listing[k]]) == EntriesOf(listing[k].0, listing[k].1) by {
      assert [listing[k]][1..] == [];
    }
  }

  /** Every entry comes from some record: the offsets end at the length. */
  lemma FlattenEnds(listing: Listing)
    ensures Offset(listing, |listing|) == |Flatten(listing)|
  {
    assert listing[..|listing|] == listing;
  }

  /** Entry `e` stands for note `i` of the `k`-th listed record. */
  predicate IsEntryFor(listing: Listing, k: int, i: int, e: Entry) {
    && 0 <= k < |listing| && listing[k].1.notes.Some?
    && 0 <= i < |listing[k].1.notes.value|
    && e == Annotate(listing[k].0, listing[k].1.title, listing[k].1.notes.value[i])
  }

  /** Flattening loses nothing and invents nothing: an entry is listed exactly
      when it annotates some note of some record that has a notes array, and
      it then carries that record's video id. */
  lemma {:induction false} FlattenMembers(listing: Listing, e: Entry)
    ensures e in Flatten(listing) <==> exists k, i :: IsEntryFor(listing, k, i, e)
  {
    if listing != [] {
      var head := EntriesOf(listing[0].0, listing[0].1);
      var tail := listing[1..];
      FlattenMembers(tail, e);
      assert Flatten(listing) == head + Flatten(tail);
      if e in head {
        var i :| 0 <= i < |head| && head[i] == e;
        assert IsEntryFor(listing, 0, i, e);
      } else if e in Flatten(tail) {
        var k, i :| IsEntryFor(tail, k, i, e);
        assert IsEntryFor(listing, k + 1, i, e);
      }
      if exists k, i :: IsEntryFor(listing, k, i, e) {
        var k, i :| IsEntryFor(listing, k, i, e);
        if k == 0 {
          assert head[i] == e;
        } else {
          assert IsEntryFor(tail, k - 1, i, e);
        }
      }
    }
  }

  /** Newest first: `(a, b) => b.createdAt - a.createdAt` sorts by `-createdAt`. */
  function NewestFirst(e: Entry): int {
    -(e.createdAt as int)
  }

  /** `getAllNotes`: the flattened entries stably sorted newest first, or no
      entries at all when the read fails. */
  function GetAllNotes(read: StoreRead): (r: seq<Entry>)
    ensures read.ReadFailed? ==> r == []
    ensures read.ReadOk? ==> multiset(r) == multiset(Flatten(read.listing))
    ensures forall i, j :: 0 <= i < j < |r| ==> r[i].createdAt >= r[j].createdAt
    ensures read.ReadOk? ==> SameTies(Flatten(read.listing), r, NewestFirst)
  {
    match read
    case ReadFailed => []
    case ReadOk(listing) =>
      var r := SortBy(Flatten(listing), NewestFirst);
      assert forall i, j :: 0 <= i < j < |r| ==> NewestFirst(r[i]) <= NewestFirst(r[j]);
      r
  }

  /** The order is fully determined: any newest-first arrangement of the
      flattened entries that keeps flatten order among equal creation times
      is the one `getAllNotes` returns. */
  lemma GetAllNotesIsDetermined(listing: Listing, ys: seq<Entry>)
    requires forall i, j :: 0 <= i < j < |ys| ==> ys[i].createdAt >= ys[j].createdAt
    requires SameTies(Flatten(listing), ys, NewestFirst)
    ensures ys == GetAllNotes(ReadOk(listing))
  {
    SortByIsTheStableSort(Flatten(listing), ys, NewestFirst);
  }

  // ---------------------------------------------------------------------
  // Grouping by video

  /** One entry of `groupedByVideo`: a video id, the title of its first entry,
      and its entries in the order they were met. */
  datatype Group = Group(videoId: string, title: string, notes: seq<Entry>)

  predicate Mentions(es: seq<Entry>, id: string) {
    exists i :: 0 <= i < |es| && es[i].videoId == id
  }

  /** Where `id` is first met in `es`. */
  function FirstIndex(es: seq<Entry>, id: string): (i: nat)
    requires Mentions(es, id)
    ensures i < |es| && es[i].videoId == id
    ensures forall j :: 0 <= j < i ==> es[j].videoId != id
  {
    if es[0].videoId == id then 0
    else
      assert Mentions(es[1..], id) by {
        var i :| 0 <= i < |es| && es[i].videoId == id;
        assert es[1..][i - 1].videoId == id;
      }
      1 + FirstIndex(es[1..], id)
  }

  /** The entries of `es` about video `id`, in their order in `es`. */
  function OfVideo(es: seq<Entry>, id: string): (r: seq<Entry>)
    ensures |r| <= |es|
  {
    if es == [] then []
    else OfVideo(es[..|es| - 1], id) + (if es[|es| - 1].videoId == id then [es[|es| - 1]] else [])
  }

  /** The position of the group for `id`, if there is one. */
  function GroupIndex(gs: seq<Group>, id: string): (k: Option<nat>)
    ensures k.Some? ==> k.value < |gs| && gs[k.value].videoId == id
    ensures k.None? ==> forall j :: 0 <= j < |gs| ==> gs[j].videoId != id
  {
    if gs == [] then None
    else if gs[0].videoId == id then Some(0)
    else match GroupIndex(gs[1..], id)
      case None => None
      case Some(k) => Some(k + 1)
  }

  /** One step of the grouping loop: open a group titled after `e` the first
      time its video is met, then push `e` onto its video's group. */
  function AddToGroups(gs: seq<Group>, e: Entry): seq<Group> {
    match GroupIndex(gs, e.videoId)
    case None => gs + [Group(e.videoId, e.videoTitle, [e])]
    case Some(k) => Grown(gs, k, e)
  }

  /** Group `k` with `e` pushed onto its entries. */
  function Grown(gs: seq<Group>, k: nat, e: Entry): seq<Group>
    requires k < |gs|
  {
    gs[k := gs[k].(notes := gs[k].notes + [e])]
  }

  /** The grouping loop of `renderNotes`, with the groups in the order
      `Object.entries(groupedByVideo)` lists them (insertion order). It
      produces exactly the intended grouping. */
  function GroupByVideo(es: seq<Entry>): (gs: seq<Group>)
    ensures GroupsOf(es, gs)
  {
    if es == [] then []
    else
      var before := GroupByVideo(es[..|es| - 1]);
      GroupByVideoStep(es, before);
      AddToGroups(before, es[|es| - 1])
  }

  lemma GroupByVideoStep(es: seq<Entry>, before: seq<Group>)
    requires es != [] && GroupsOf(es[..|es| - 1], before)
    ensures GroupsOf(es, AddToGroups(before, es[|es| - 1]))
  {
    var init, e := es[..|es| - 1], es[|es| - 1];
    assert es == init + [e];
    AddToGroupsStep(init, before, e);
  }

  /** What the grouping is meant to produce from `es`: one group per video
      mentioned, and no other; each group holding exactly its video's entries
      in order and titled after the first of them; groups ordered by where
      their video is first met. */
  predicate GroupsOf(es: seq<Entry>, gs: seq<Group>) {
    && DistinctIds(gs)
    && Grounded(es, gs)
    && Covers(es, gs)
    && Contents(es, gs)
    && Titles(es, gs)
    && FirstSeenOrder(es, gs)
  }

  predicate DistinctIds(gs: seq<Group>) {
    forall i, j :: 0 <= i < j < |gs| ==> gs[i].videoId != gs[j].videoId
  }

  predicate Grounded(es: seq<Entry>, gs: seq<Group>) {
    forall k :: 0 <= k < |gs| ==> Mentions(es, gs[k].videoId)
  }

  predicate Covers(es: seq<Entry>, gs: seq<Group>) {
    forall i :: 0 <= i < |es| ==> GroupIndex(gs, es[i].videoId).Some?
  }

  predicate Contents(es: seq<Entry>, gs: seq<Group>) {
    forall k :: 0 <= k < |gs| ==> gs[k].notes == OfVideo(es, gs[k].videoId)
  }

  predicate Titles(es: seq<Entry>, gs: seq<Group>)
    requires Grounded(es, gs)
  {
    forall k :: 0 <= k < |gs| ==> gs[k].title == es[FirstIndex(es, gs[k].videoId)].videoTitle
  }

  predicate FirstSeenOrder(es: seq<Entry>, gs: seq<Group>)
    requires Grounded(es, gs)
  {
    forall i, j :: 0 <= i < j < |gs| ==> FirstIndex(es, gs[i].videoId) < FirstIndex(es, gs[j].videoId)
  }

  /** Facts about `es + [e]` in terms of `es`. */
  lemma Extend(es: seq<Entry>, e: Entry, id: string)
    ensures Mentions(es + [e], id) <==> Mentions(es, id) || e.videoId == id
    ensures Mentions(es, id) ==> FirstIndex(es + [e], id) == FirstIndex(es, id)
    ensures !Mentions(es, id) && e.videoId == id ==> FirstIndex(es + [e], id) == |es|
    ensures OfVideo(es + [e], id) == OfVideo(es, id) + (if e.videoId == id then [e] else [])
  {
    var xs := es + [e];
    assert xs[..|xs| - 1] == es;
    if Mentions(es, id) {
      var i := FirstIndex(es, id);
      assert xs[i].videoId == id;
    }
    if e.videoId == id {
      assert xs[|es|].videoId == id;
    }
    if Mentions(xs, id) {
      var i := FirstIndex(xs, id);
      if i < |es| {
        assert es[i].videoId == id;
      }
    }
  }

  lemma AddToGroupsStep(es: seq<Entry>, gs: seq<Group>, e: Entry)
    requires GroupsOf(es, gs)
    ensures GroupsOf(es + [e], AddToGroups(gs, e))
  {
    match GroupIndex(gs, e.videoId)
    case None =>
      NewGroupIsFirstMention(es, gs, e);
      NewGroupShape(es, gs, e);
      NewGroupCovers(es, gs, e);
      NewGroupIndices(es, gs, e);
    case Some(k) =>
      OldGroupShape(es, gs, e, k);
      OldGroupIndices(es, gs, e, k);
  }

  lemma NewGroupIsFirstMention(es: seq<Entry>, gs: seq<Group>, e: Entry)
    requires Covers(es, gs)
    requires GroupIndex(gs, e.videoId).None?
    ensures !Mentions(es, e.videoId)
  {
    forall i | 0 <= i < |es| ensures es[i].videoId != e.videoId {
      assert GroupIndex(gs, es[i].videoId).Some?;
    }
  }

  /** A new group: ids stay distinct and every group is about a mentioned video. */
  lemma NewGroupShape(es: seq<Entry>, gs: seq<Group>, e: Entry)
    requires DistinctIds(gs) && Grounded(es, gs) && Contents(es, gs)
    requires GroupIndex(gs, e.videoId).None? && !Mentions(es, e.videoId)
    ensures var xs, hs := es + [e], AddToGroups(gs, e);
            DistinctIds(hs) && Grounded(xs, hs) && Contents(xs, hs)
  {
    var xs, hs := es + [e], AddToGroups(gs, e);
    assert hs == gs + [Group(e.videoId, e.videoTitle, [e])];
    forall k | 0 <= k < |hs| ensures Mentions(xs, hs[k].videoId) && hs[k].notes == OfVideo(xs, hs[k].videoId) {
      Extend(es, e, hs[k].videoId);
      if k == |gs| {
        OfVideoAbsent(es, e.videoId);
      }
    }
  }

  /** A new group: every entry, old and new, has a group. */
  lemma NewGroupCovers(es: seq<Entry>, gs: seq<Group>, e: Entry)
    requires Covers(es, gs)
    requires GroupIndex(gs, e.videoId).None?
    ensures Covers(es + [e], AddToGroups(gs, e))
  {
    var xs, hs := es + [e], AddToGroups(gs, e);
    var g := Group(e.videoId, e.videoTitle, [e]);
    assert hs == gs + [g];
    forall i | 0 <= i < |xs| ensures GroupIndex(hs, xs[i].videoId).Some? {
      if i < |es| {
        assert xs[i] == es[i];
        GroupIndexAppend(gs, g, es[i].videoId);
      } else {
        GroupIndexAppend(gs, g, e.videoId);
      }
    }
  }

  /** A new group: titles and first-seen order. */
  lemma NewGroupIndices(es: seq<Entry>, gs: seq<Group>, e: Entry)
    requires Grounded(es, gs) && Titles(es, gs) && FirstSeenOrder(es, gs)
    requires GroupIndex(gs, e.videoId).None? && !Mentions(es, e.videoId)
    requires Grounded(es + [e], AddToGroups(gs, e))
    ensures Titles(es + [e], AddToGroups(gs, e)) && FirstSeenOrder(es + [e], AddToGroups(gs, e))
  {
    var xs, hs := es + [e], AddToGroups(gs, e);
    assert hs == gs + [Group(e.videoId, e.videoTitle, [e])];
    forall k | 0 <= k < |hs|
      ensures FirstIndex(xs, hs[k].videoId) == if k < |gs| then FirstIndex(es, gs[k].videoId) else |es|
    {
      Extend(es, e, hs[k].videoId);
    }
    forall k | 0 <= k < |hs| ensures hs[k].title == xs[FirstIndex(xs, hs[k].videoId)].videoTitle {
      if k < |gs| {
        assert xs[FirstIndex(es, gs[k].videoId)] == es[FirstIndex(es, gs[k].videoId)];
      }
    }
  }

  /** An existing group grows: ids, cover and grounding are unchanged, and
      only that group's entries change. */
  lemma OldGroupShape(es: seq<Entry>, gs: seq<Group>, e: Entry, k: nat)
    requires DistinctIds(gs) && Grounded(es, gs) && Covers(es, gs) && Contents(es, gs)
    requires GroupIndex(gs, e.videoId) == Some(k)
    ensures var xs, hs := es + [e], AddToGroups(gs, e);
            DistinctIds(hs) && Grounded(xs, hs) && Covers(xs, hs) && Contents(xs, hs)
  {
    GrowGroup(gs, e, k);
    GrownIds(es, e, gs, AddToGroups(gs, e));
    GrownContents(es, e, gs, AddToGroups(gs, e));
  }

  /** An existing group grows: titles and order are unchanged. */
  lemma OldGroupIndices(es: seq<Entry>, gs: seq<Group>, e: Entry, k: nat)
    requires DistinctIds(gs) && Grounded(es, gs) && Titles(es, gs) && FirstSeenOrder(es, gs)
    requires GroupIndex(gs, e.videoId) == Some(k)
    requires Grounded(es + [e], AddToGroups(gs, e))
    ensures Titles(es + [e], AddToGroups(gs, e)) && FirstSeenOrder(es + [e], AddToGroups(gs, e))
  {
    GrowGroup(gs, e, k);
    GrownIndices(es, e, gs, AddToGroups(gs, e));
  }

  /** `hs` has the groups of `gs` for the same videos, in the same order. */
  predicate SameIds(gs: seq<Group>, hs: seq<Group>) {
    |hs| == |gs| && forall j :: 0 <= j < |gs| ==> hs[j].videoId == gs[j].videoId && hs[j].title == gs[j].title
  }

  /** Pushing onto the group of `e`'s video appends `e` to that group only. */
  lemma {:induction false} GrowGroup(gs: seq<Group>, e: Entry, k: nat)
    requires DistinctIds(gs)
    requires GroupIndex(gs, e.videoId) == Some(k)
    ensures AddToGroups(gs, e) == Grown(gs, k, e)
    ensures var hs := Grown(gs, k, e);
            && SameIds(gs, hs)
            && forall j :: 0 <= j < |gs| ==>
                 hs[j].notes == gs[j].notes + (if gs[j].videoId == e.videoId then [e] else [])
  {
  }

  lemma GrownIds(es: seq<Entry>, e: Entry, gs: seq<Group>, hs: seq<Group>)
    requires DistinctIds(gs) && Covers(es, gs) && GroupIndex(gs, e.videoId).Some?
    requires SameIds(gs, hs)
    ensures DistinctIds(hs) && Covers(es + [e], hs)
  {
    var xs := es + [e];
    forall id ensures GroupIndex(hs, id) == GroupIndex(gs, id) {
      GroupIndexSameIds(gs, hs, id);
    }
    forall i | 0 <= i < |xs| ensures GroupIndex(hs, xs[i].videoId).Some? {
      if i < |es| {
        assert xs[i] == es[i];
      }
    }
  }

  lemma GrownContents(es: seq<Entry>, e: Entry, gs: seq<Group>, hs: seq<Group>)
    requires Grounded(es, gs) && Contents(es, gs)
    requires SameIds(gs, hs)
    requires forall j :: 0 <= j < |gs| ==>
               hs[j].notes == gs[j].notes + (if gs[j].videoId == e.videoId then [e] else [])
    ensures Grounded(es + [e], hs) && Contents(es + [e], hs)
  {
    var xs := es + [e];
    forall j | 0 <= j < |hs| ensures Mentions(xs, hs[j].videoId) && hs[j].notes == OfVideo(xs, hs[j].videoId) {
      Extend(es, e, gs[j].videoId);
    }
  }

  lemma GrownIndices(es: seq<Entry>, e: Entry, gs: seq<Group>, hs: seq<Group>)
    requires Grounded(es, gs) && Titles(es, gs) && FirstSeenOrder(es, gs)
    requires SameIds(gs, hs)
    requires Grounded(es + [e], hs)
    ensures Titles(es + [e], hs) && FirstSeenOrder(es + [e], hs)
  {
    var xs := es + [e];
    forall j | 0 <= j < |hs| ensures FirstIndex(xs, hs[j].videoId) == FirstIndex(es, gs[j].videoId) {
      Extend(es, e, gs[j].videoId);
    }
    forall j | 0 <= j < |hs| ensures hs[j].title == xs[FirstIndex(xs, hs[j].videoId)].videoTitle {
      assert xs[FirstIndex(es, gs[j].videoId)] == es[FirstIndex(es, gs[j].videoId)];
    }
  }

  lemma {:induction false} OfVideoAbsent(es: seq<Entry>, id: string)
    requires !Mentions(es, id)
    ensures OfVideo(es, id) == []
  {
    if es != [] {
      var init := es[..|es| - 1];
      assert forall i :: 0 <= i < |init| ==> init[i] == es[i];
      OfVideoAbsent(init, id);
    }
  }

  lemma {:induction false} GroupIndexAppend(gs: seq<Group>, g: Group, id: string)
    requires GroupIndex(gs, id).Some? || g.videoId == id
    ensures GroupIndex(gs + [g], id).Some?
  {
    if gs != [] && gs[0].videoId != id {
      assert (gs + [g])[1..] == gs[1..] + [g];
      GroupIndexAppend(gs[1..], g, id);
    }
  }

  lemma {:induction false} GroupIndexSameIds(gs: seq<Group>, hs: seq<Group>, id: string)
    requires SameIds(gs, hs)
    ensures GroupIndex(hs, id) == GroupIndex(gs, id)
  {
    if gs != [] {
      GroupIndexSameIds(gs[1..], hs[1..], id);
    }
  }

  // ---------------------------------------------------------------------
  // The rendered page

  /** The sort key of `(a, b) => a.time - b.time`. */
  function EntryTime(e: Entry): int {
    e.time
  }

  /** One video section: its header title, the "N件のメモ" count, and its
      notes in playback order. */
  datatype Section = Section(videoId: string, title: string, count: nat, notes: seq<Entry>)

  /** The page `renderNotes` shows: the empty-state message when there is no
      entry at all, otherwise one section per group. */
  datatype Page = EmptyState | Sections(sections: seq<Section>)

  /** A group as displayed: the count is taken before the in-place sort by
      time, which changes only the order. */
  function RenderGroup(g: Group): (s: Section)
    ensures s.videoId == g.videoId && s.title == g.title
    ensures s.count == |s.notes| == |g.notes|
    ensures SortedBy(s.notes, EntryTime)
    ensures multiset(s.notes) == multiset(g.notes)
    ensures SameTies(g.notes, s.notes, EntryTime)
  {
    Section(g.videoId, g.title, |g.notes|, SortBy(g.notes, EntryTime))
  }

  function RenderGroups(gs: seq<Group>): (ss: seq<Section>)
    ensures |ss| == |gs|
    ensures forall k :: 0 <= k < |gs| ==> ss[k] == RenderGroup(gs[k])
  {
    if gs == [] then [] else [RenderGroup(gs[0])] + RenderGroups(gs[1..])
  }

  /** `renderNotes(notes)`. */
  function RenderPage(es: seq<Entry>): (p: Page)
    ensures p.EmptyState? <==> es == []
  {
    if |es| == 0 then EmptyState else Sections(RenderGroups(GroupByVideo(es)))
  }

  /** Every entry of `es` is shown in exactly one of the sections `ss`: the
      one of its video, which lists that video's entries in playback order,
      with the right count. */
  predicate ShowsEachEntryOnce(es: seq<Entry>, ss: seq<Section>) {
    && (forall i, j :: 0 <= i < j < |ss| ==> ss[i].videoId != ss[j].videoId)
    && (forall i :: 0 <= i < |es| ==> exists k :: 0 <= k < |ss| && ss[k].videoId == es[i].videoId)
    && (forall k :: 0 <= k < |ss| ==>
          && Mentions(es, ss[k].videoId)
          && ss[k].count == |ss[k].notes|
          && SortedBy(ss[k].notes, EntryTime)
          && multiset(ss[k].notes) == multiset(OfVideo(es, ss[k].videoId)))
  }

  /** A non-empty list of entries is shown as sections, each entry once, in
      the section of its video. */
  lemma {:induction false} RenderPageSections(es: seq<Entry>)
    requires es != []
    ensures RenderPage(es).Sections? && ShowsEachEntryOnce(es, RenderPage(es).sections)
  {
    SectionsOfGroups(es, GroupByVideo(es));
    assert RenderPage(es).sections == RenderGroups(GroupByVideo(es));
  }

  /** The sections rendered from a grouping with distinct, grounded, covering
      groups of the right contents. */
  lemma {:induction false} SectionsOfGroups(es: seq<Entry>, gs: seq<Group>)
    requires DistinctIds(gs) && Grounded(es, gs) && Covers(es, gs) && Contents(es, gs)
    ensures ShowsEachEntryOnce(es, RenderGroups(gs))
  {
    var ss := RenderGroups(gs);
    forall k | 0 <= k < |ss| ensures ss[k] == RenderGroup(gs[k]) && ss[k].videoId == gs[k].videoId {
    }
    forall i | 0 <= i < |es| ensures exists k :: 0 <= k < |ss| && ss[k].videoId == es[i].videoId {
      var k := GroupIndex(gs, es[i].videoId).value;
      assert ss[k].videoId == es[i].videoId;
    }
    forall k | 0 <= k < |ss|
      ensures && Mentions(es, ss[k].videoId)
              && ss[k].count == |ss[k].notes|
              && SortedBy(ss[k].notes, EntryTime)
              && multiset(ss[k].notes) == multiset(OfVideo(es, ss[k].videoId))
    {
      assert gs[k].notes == OfVideo(es, gs[k].videoId);
    }
  }

  // ---------------------------------------------------------------------
  // Jumping to a note

  const WatchPrefix: string := "https://www.youtube.com/watch?v="

  /** The URL `jumpToVideo(videoId, time)` opens. It can be taken apart
      again: after the watch prefix come the video id, `&t=`, and a number
      that reads back as the time, then `s`. */
  function JumpUrl(videoId: string, time: nat): (url: string)
    ensures var n := |WatchPrefix| + |videoId|;
            && |url| >= n + 4
            && url[..|WatchPrefix|] == WatchPrefix
            && url[|WatchPrefix|..n] == videoId
            && url[n..n + 3] == "&t="
            && url[n + 3..|url| - 1] == NatToString(time)
            && url[|url| - 1] == 's'
            && ParseIntPrefix(url[n + 3..]) == Some(time)
  {
    var digits := NatToString(time);
    UrlParts(WatchPrefix, videoId, digits);
    ParseIntPrefixOfDigits(digits, "s");
    ParseNatToString(time);
    WatchPrefix + videoId + "&t=" + digits + "s"
  }

  /** The value `${time}` prints for what `parseInt(data-time, 10)` returned:
      the number, or `NaN` when no digit led the attribute. */
  function TimeText(parsed: Option<nat>): string {
    match parsed
    case Some(t) => NatToString(t)
    case None => "NaN"
  }

  /** A click on a timestamp button: its `data-video-id` and the integer
      prefix of its `data-time` make the URL. When `data-time` does not start
      with a digit the URL carries `t=NaN`. */
  function ClickUrl(videoId: string, dataTime: string): (url: string)
    ensures ParseIntPrefix(dataTime).Some? ==> url == JumpUrl(videoId, ParseIntPrefix(dataTime).value)
    ensures dataTime == [] || !IsDigit(dataTime[0]) ==> url == WatchPrefix + videoId + "&t=NaN" + "s"
  {
    WatchPrefix + videoId + "&t=" + TimeText(ParseIntPrefix(dataTime)) + "s"
  }

  /** The button of a note opens the video at the note's whole second: the
      `data-time` written from the time (possibly with a fraction after it)
      reads back through `parseInt` as that time. */
  lemma ClickJumpsToNote(videoId: string, time: nat, fraction: string)
    requires fraction == [] || fraction[0] == '.'
    ensures ClickUrl(videoId, NatToString(time) + fraction) == JumpUrl(videoId, time)
  {
    ParseIntPrefixOfRendered(time, fraction);
  }

  /** Where the pieces of `prefix + videoId + "&t=" + digits + "s"` sit. */
  lemma UrlParts(prefix: string, videoId: string, digits: string)
    ensures var url := prefix + videoId + "&t=" + digits + "s";
            var n := |prefix| + |videoId|;
            && url[..|prefix|] == prefix
            && url[|prefix|..n] == videoId
            && url[n..n + 3] == "&t="
            && url[|url| - 1] == 's'
            && url[n + 3..] == digits + "s"
            && url[n + 3..|url| - 1] == digits
  {
  }
}

=== FILE: popup.dfy ===
/** The toolbar popup (popup.js): the checks `getVideoInfo` makes before and
    after asking the page overlay, and the save handler shared in substance
    with the overlay's form. Ties the three surfaces together: what a save
    writes is what the management page lists. */
module Popup {
  import opened Outcomes
  import opened Text
  import opened TimeFormat
  import opened NoteStore
  import opened Overview
  import opened Overlay

  const WatchMarker: string := "youtube.com/watch"
  const DefaultInfoError: string := "動画情報の取得に失敗しました"

  /** The outcome of `getVideoInfo`: whether the message was sent to the tab
      at all, and what the call resolved or rejected with. */
  datatype Query = Query(messageSent: bool, result: Result<Response>)

  /** `getVideoInfo`, with the tab's URL and the overlay's answer (absent when
      the call resolved with no response) as inputs: reject before messaging unless the URL is a
      watch page; reject when the answer is missing or carries a non-empty
      `error`, with that error as the message or the default text. */
  function GetVideoInfo(tabUrl: Option<string>, answer: Option<Response>): (q: Query)
    ensures !q.messageSent <==> tabUrl.None? || !Contains(tabUrl.value, WatchMarker)
    ensures !q.messageSent ==> q.result == Err(NotWatchPage)
    ensures q.messageSent && answer.None? ==> q.result == Err(NoVideoInfo(DefaultInfoError))
    ensures q.messageSent && answer.Some? && answer.value.error.Some? && answer.value.error.value != ""
            ==> q.result == Err(NoVideoInfo(answer.value.error.value))
    ensures q.result.Ok? <==> q.messageSent && answer.Some?
                              && (answer.value.error.None? || answer.value.error.value == "")
    ensures q.result.Ok? ==> q.result.value == answer.value
  {
    if tabUrl.None? || !Contains(tabUrl.value, WatchMarker) then Query(false, Err(NotWatchPage))
    else if answer.None? then Query(true, Err(NoVideoInfo(DefaultInfoError)))
    else if answer.value.error.Some? && answer.value.error.value != "" then
      Query(true, Err(NoVideoInfo(answer.value.error.value)))
    else Query(true, Ok(answer.value))
  }

  /** The popup and the overlay agree: on a watch page, the overlay's answer
      passes the popup's checks exactly when the page has a video and an id,
      and then carries the id, position and derived title; otherwise the
      popup reports the overlay's error text. */
  lemma PopupReadsOverlayAnswer(tabUrl: string, videoId: Option<string>, hasVideo: bool,
                                currentTime: nat, documentTitle: string)
    requires Contains(tabUrl, WatchMarker)
    ensures var q := GetVideoInfo(Some(tabUrl), Some(HandleGetVideoInfo(videoId, hasVideo, currentTime, documentTitle)));
            && q.messageSent
            && (q.result.Ok? <==> hasVideo && Present(videoId))
            && (q.result.Ok? ==> q.result.value.info
                                 == Some(VideoInfo(videoId.value, currentTime, DeriveTitle(documentTitle))))
            && (q.result.Err? ==> q.result.error == NoVideoInfo(NoVideoMessage))
  {
  }

  /** The save button (popup.js and the overlay's form alike): trim the
      text; blank text is refused without touching the store; otherwise the
      trimmed text is saved for the video. */
  function SubmitNote(store: Store, videoId: string, videoTitle: string, time: nat, rawText: string, now: nat)
    : (r: Result<Store>)
    ensures r == Err(EmptyText) <==> AllWhitespace(rawText)
    ensures !AllWhitespace(rawText) ==> r == SaveNote(store, videoId, videoTitle, time, Trim(rawText), now)
  {
    var text := Trim(rawText);
    if text == [] then Err(EmptyText) else SaveNote(store, videoId, videoTitle, time, text, now)
  }

  /** A submitted note is stored with its text trimmed, non-blank and
      without surrounding whitespace, stamped with its formatted time. */
  lemma SubmitStoresTrimmedNote(store: Store, videoId: string, videoTitle: string, time: nat, rawText: string, now: nat)
    requires !AllWhitespace(rawText)
    requires videoId !in store || store[videoId].notes.Some?
    ensures SubmitNote(store, videoId, videoTitle, time, rawText, now).Ok?
    ensures var text := Trim(rawText);
            var after := SubmitNote(store, videoId, videoTitle, time, rawText, now).value;
            && text != []
            && !IsJsWhitespace(text[0]) && !IsJsWhitespace(text[|text| - 1])
            && after[videoId].notes.Some?
            && NewNote(time, text, now) in after[videoId].notes.value
            && NewNote(time, text, now).stamp == Some(FormatTime(time))
  {
    var text := Trim(rawText);
    var after := SubmitNote(store, videoId, videoTitle, time, rawText, now).value;
    assert NewNote(time, text, now) in multiset(after[videoId].notes.value);
  }

  /** `listing` is an enumeration of `store`: every pair is a stored record
      and every stored key appears. */
  predicate Enumerates(listing: Listing, store: Store) {
    && (forall k :: 0 <= k < |listing| ==> listing[k].0 in store && listing[k].1 == store[listing[k].0])
    && (forall id :: id in store ==> exists k :: 0 <= k < |listing| && listing[k].0 == id)
  }

  /** What a save writes, the management page lists: after a successful
      submit, the page's list holds the new note's entry, with the video's
      id and title, the trimmed text, the time and the creation time. */
  lemma SubmittedNoteIsListed(store: Store, videoId: string, videoTitle: string, time: nat, rawText: string,
                              now: nat, after: Store, listing: Listing)
    requires SubmitNote(store, videoId, videoTitle, time, rawText, now) == Ok(after)
    requires Enumerates(listing, after)
    ensures Annotate(videoId, Some(videoTitle), NewNote(time, Trim(rawText), now)) in GetAllNotes(ReadOk(listing))
  {
    var n := NewNote(time, Trim(rawText), now);
    SubmittedNoteIsStored(store, videoId, videoTitle, time, rawText, now, after);
    StoredNoteIsListed(after, videoId, n, listing);
  }

  lemma SubmittedNoteIsStored(store: Store, videoId: string, videoTitle: string, time: nat, rawText: string,
                              now: nat, after: Store)
    requires SubmitNote(store, videoId, videoTitle, time, rawText, now) == Ok(after)
    ensures videoId in after && after[videoId].title == Some(videoTitle) && after[videoId].notes.Some?
    ensures NewNote(time, Trim(rawText), now) in after[videoId].notes.value
  {
    SubmitStoresTrimmedNote(store, videoId, videoTitle, time, rawText, now);
  }

  /** Every note stored under a record with a notes array is listed,
      whether or not the record has a title. */
  lemma StoredNoteIsListed(after: Store, videoId: string, n: Note, listing: Listing)
    requires videoId in after && after[videoId].notes.Some?
    requires n in after[videoId].notes.value
    requires Enumerates(listing, after)
    ensures Annotate(videoId, after[videoId].title, n) in GetAllNotes(ReadOk(listing))
  {
    var notes := after[videoId].notes.value;
    var i :| 0 <= i < |notes| && notes[i] == n;
    var k :| 0 <= k < |listing| && listing[k].0 == videoId;
    assert IsEntryFor(listing, k, i, Annotate(videoId, after[videoId].title, n));
    EntryIsListed(listing, k, i, Annotate(videoId, after[videoId].title, n));
  }

  lemma EntryIsListed(listing: Listing, k: int, i: int, e: Entry)
    requires IsEntryFor(listing, k, i, e)
    ensures e in GetAllNotes(ReadOk(listing))
  {
    FlattenMembers(listing, e);
    assert e in multiset(GetAllNotes(ReadOk(listing)));
  }
}

=== FILE: stable_sort.dfy ===
/** `Array.prototype.sort` with a comparator of the form `(a, b) => key(a) - key(b)`.
    Since ECMAScript 2019 that sort is stable, so its result is fully
    determined: the one arrangement that is ordered by key and keeps the input
    order among elements with equal keys (see `StableSortUnique`). It is
    modelled here as an insertion sort. */
module StableSort {

  predicate SortedBy<T>(xs: seq<T>, key: T -> int) {
    forall i, j :: 0 <= i < j < |xs| ==> key(xs[i]) <= key(xs[j])
  }

  /** The elements of `xs` whose key is `k`, in their order in `xs`. */
  function WithKey<T>(xs: seq<T>, key: T -> int, k: int): (r: seq<T>)
    ensures |r| <= |xs|
  {
    if xs == [] then []
    else (if key(xs[0]) == k then [xs[0]] else []) + WithKey(xs[1..], key, k)
  }

  /** `ys` rearranges `xs` keeping the relative order of equal-key elements. */
  ghost predicate SameTies<T>(xs: seq<T>, ys: seq<T>, key: T -> int) {
    forall k :: WithKey(xs, key, k) == WithKey(ys, key, k)
  }

  /** Where `Insert` puts `x`: past every leading element whose key is at most `key(x)`. */
  function Landing<T>(s: seq<T>, x: T, key: T -> int): (j: nat)
    ensures j <= |s|
    ensures forall i :: 0 <= i < j ==> key(s[i]) <= key(x)
    ensures j < |s| ==> key(x) < key(s[j])
  {
    if s == [] || key(x) < key(s[0]) then 0 else 1 + Landing(s[1..], x, key)
  }

  /** Place `x` at its landing position, the rest of `s` keeping its order. */
  function Insert<T>(s: seq<T>, x: T, key: T -> int): seq<T>
  {
    var j := Landing(s, x, key);
    s[..j] + [x] + s[j..]
  }

  /** The stable sort of `xs` by `key`. */
  function SortBy<T(==)>(xs: seq<T>, key: T -> int): (r: seq<T>)
    ensures SortedBy(r, key)
    ensures multiset(r) == multiset(xs)
    ensures SameTies(xs, r, key)
  {
    if xs == [] then []
    else
      var init := xs[..|xs| - 1];
      var x := xs[|xs| - 1];
      var sorted := SortBy(init, key);
      assert xs == init + [x];
      InsertSorted(sorted, x, key);
      InsertKeepsTies(init, sorted, x, key);
      Insert(sorted, x, key)
  }

  /** Inserting into a sorted list keeps it sorted; the elements are those of `s` plus `x`. */
  lemma InsertSorted<T>(s: seq<T>, x: T, key: T -> int)
    requires SortedBy(s, key)
    ensures SortedBy(Insert(s, x, key), key)
    ensures multiset(Insert(s, x, key)) == multiset(s) + multiset{x}
  {
    var j := Landing(s, x, key);
    LandingSplits(s, x, key);
    SplicedSorted(s, x, key, j);
    assert s == s[..j] + s[j..];
  }

  /** Element `i` of `s` with `x` spliced in at `j`. */
  lemma SplicedAt<T>(s: seq<T>, x: T, j: nat, i: nat)
    requires j <= |s| && i <= |s|
    ensures var r := s[..j] + [x] + s[j..];
            r[i] == if i < j then s[i] else if i == j then x else s[i - 1]
  {
  }

  /** Splicing `x` in where the keys pass `key(x)` keeps a sorted list sorted. */
  lemma SplicedSorted<T>(s: seq<T>, x: T, key: T -> int, j: nat)
    requires SortedBy(s, key) && j <= |s|
    requires forall i :: 0 <= i < j ==> key(s[i]) <= key(x)
    requires forall i :: j <= i < |s| ==> key(x) < key(s[i])
    ensures SortedBy(s[..j] + [x] + s[j..], key)
  {
    var r := s[..j] + [x] + s[j..];
    forall i, l | 0 <= i < l < |r|
      ensures key(r[i]) <= key(r[l])
    {
      SplicedAt(s, x, j, i);
      SplicedAt(s, x, j, l);
    }
  }

  /** Sorting one more element: the ties of `init + [x]` are those of a sorted
      arrangement of `init` with `x` inserted. */
  lemma InsertKeepsTies<T>(init: seq<T>, sorted: seq<T>, x: T, key: T -> int)
    requires SortedBy(sorted, key) && SameTies(init, sorted, key)
    ensures SameTies(init + [x], Insert(sorted, x, key), key)
  {
    InsertTies(sorted, x, key);
    forall k ensures WithKey(init + [x], key, k) == WithKey(Insert(sorted, x, key), key, k) {
      WithKeyAppend(init, [x], key, k);
    }
  }

  lemma {:induction false} WithKeyAppend<T>(a: seq<T>, b: seq<T>, key: T -> int, k: int)
    ensures WithKey(a + b, key, k) == WithKey(a, key, k) + WithKey(b, key, k)
  {
    if a != [] {
      assert (a + b)[1..] == a[1..] + b;
      WithKeyAppend(a[1..], b, key, k);
    } else {
      assert a + b == b;
    }
  }

  /** Inserting `x` into a sorted list puts it after every element with its key. */
  lemma InsertTies<T>(s: seq<T>, x: T, key: T -> int)
    requires SortedBy(s, key)
    ensures forall k :: WithKey(Insert(s, x, key), key, k) == WithKey(s, key, k) + WithKey([x], key, k)
  {
    var j := Landing(s, x, key);
    LandingSplits(s, x, key);
    forall k ensures WithKey(Insert(s, x, key), key, k) == WithKey(s, key, k) + WithKey([x], key, k) {
      SplicedTies(s, x, key, j, k);
    }
  }

  /** Splicing `x` in before elements of larger keys only puts it after its ties. */
  lemma {:induction false} SplicedTies<T>(s: seq<T>, x: T, key: T -> int, j: nat, k: int)
    requires j <= |s|
    requires forall i :: j <= i < |s| ==> key(x) < key(s[i])
    ensures WithKey(s[..j] + [x] + s[j..], key, k) == WithKey(s, key, k) + WithKey([x], key, k)
  {
    var left, right := s[..j], s[j..];
    WithKeyAppend(left + [x], right, key, k);
    WithKeyAppend(left, [x], key, k);
    WithKeyAppend(left, right, key, k);
    assert s == left + right;
    if key(x) == k {
      forall i | 0 <= i < |right| ensures key(right[i]) > k {
        assert right[i] == s[j + i];
      }
      WithKeyAbove(right, key, k);
    } else {
      assert WithKey([x], key, k) == [] by {
        assert [x][1..] == [];
      }
    }
  }

  /** No element of a list whose keys all exceed `k` has key `k`. */
  lemma {:induction false} WithKeyAbove<T>(s: seq<T>, key: T -> int, k: int)
    requires forall i :: 0 <= i < |s| ==> key(s[i]) > k
    ensures WithKey(s, key, k) == []
  {
    if s != [] {
      WithKeyAbove(s[1..], key, k);
    }
  }

  lemma {:induction false} InWithKey<T>(s: seq<T>, key: T -> int, k: int, x: T)
    ensures x in WithKey(s, key, k) <==> x in s && key(x) == k
  {
    if s != [] {
      InWithKey(s[1..], key, k, x);
      assert s == [s[0]] + s[1..];
    }
  }

  /** Lists with the same ties have the same elements. */
  lemma TiesKeepMembers<T>(a: seq<T>, b: seq<T>, key: T -> int)
    requires SameTies(a, b, key)
    ensures forall x :: x in a <==> x in b
  {
    forall x ensures x in a <==> x in b {
      InWithKey(a, key, key(x), x);
      InWithKey(b, key, key(x), x);
    }
  }

  /** Sorting a list that is already in key order changes nothing. */
  lemma {:induction false} SortBySorted<T>(xs: seq<T>, key: T -> int)
    requires SortedBy(xs, key)
    ensures SortBy(xs, key) == xs
  {
    if xs != [] {
      SortByLast(xs, key);
      InsertLast(xs, key);
      SortBySorted(xs[..|xs| - 1], key);
    }
  }

  /** The last element of a sorted list lands at the end of the rest, which is sorted too. */
  lemma InsertLast<T>(xs: seq<T>, key: T -> int)
    requires xs != [] && SortedBy(xs, key)
    ensures SortedBy(xs[..|xs| - 1], key)
    ensures Insert(xs[..|xs| - 1], xs[|xs| - 1], key) == xs
  {
    var init, x := xs[..|xs| - 1], xs[|xs| - 1];
    LandingPastAll(init, x, key);
    InsertAtEnd(init, x, key);
    assert xs == init + [x];
  }

  /** `SortBy` inserts the last element into the sorted rest. */
  lemma SortByLast<T>(xs: seq<T>, key: T -> int)
    requires xs != []
    ensures SortBy(xs, key) == Insert(SortBy(xs[..|xs| - 1], key), xs[|xs| - 1], key)
  {
  }

  lemma InsertAtEnd<T>(s: seq<T>, x: T, key: T -> int)
    requires Landing(s, x, key) == |s|
    ensures Insert(s, x, key) == s + [x]
  {
    assert s[..|s|] == s;
  }

  lemma {:induction false} LandingPastAll<T>(s: seq<T>, x: T, key: T -> int)
    requires forall i :: 0 <= i < |s| ==> key(s[i]) <= key(x)
    ensures Landing(s, x, key) == |s|
  {
    if s != [] {
      LandingPastAll(s[1..], x, key);
    }
  }

  /** In a sorted list, the landing position of `x` splits the elements into
      those with keys at most `key(x)` and those with larger keys. */
  lemma LandingSplits<T>(s: seq<T>, x: T, key: T -> int)
    requires SortedBy(s, key)
    ensures var j := Landing(s, x, key);
            && (forall i :: 0 <= i < j ==> key(s[i]) <= key(x))
            && (forall i :: j <= i < |s| ==> key(x) < key(s[i]))
  {
    var j := Landing(s, x, key);
    forall i | j <= i < |s| ensures key(x) < key(s[i]) {
      assert key(s[j]) <= key(s[i]);
    }
  }

  /** Sorting `xs + [x]` inserts `x` into the sorted `xs`. */
  lemma SortByAppend<T>(xs: seq<T>, x: T, key: T -> int)
    ensures SortBy(xs + [x], key) == Insert(SortBy(xs, key), x, key)
  {
    assert (xs + [x])[..|xs|] == xs;
  }

  /** Sorting a sorted list with one element appended places that element at
      its landing position. */
  lemma SortSortedPlusOne<T>(xs: seq<T>, x: T, key: T -> int)
    requires SortedBy(xs, key)
    ensures var j := Landing(xs, x, key); SortBy(xs + [x], key) == xs[..j] + [x] + xs[j..]
  {
    SortByAppend(xs, x, key);
    SortBySorted(xs, key);
  }

  /** The ordering and tie rules determine the result: any key-sorted
      rearrangement with the same ties is equal to `SortBy`'s. */
  lemma {:induction false} StableSortUnique<T>(a: seq<T>, b: seq<T>, key: T -> int)
    requires SortedBy(a, key) && SortedBy(b, key)
    requires SameTies(a, b, key)
    ensures a == b
    decreases |a|
  {
    TiesKeepMembers(a, b, key);
    assert a != [] ==> a[0] in a;
    assert b != [] ==> b[0] in b;
    if a != [] && b != [] {
      HeadsAgree(a, b, key);
      StableSortUnique(a[1..], b[1..], key);
      assert a == [a[0]] + a[1..] && b == [b[0]] + b[1..];
    }
  }

  /** Two sorted lists with the same ties start with the same element, and
      what follows has the same ties again. */
  lemma HeadsAgree<T>(a: seq<T>, b: seq<T>, key: T -> int)
    requires a != [] && b != []
    requires SortedBy(a, key) && SortedBy(b, key)
    requires SameTies(a, b, key)
    ensures a[0] == b[0]
    ensures SortedBy(a[1..], key) && SortedBy(b[1..], key)
    ensures SameTies(a[1..], b[1..], key)
  {
    var ka, kb := key(a[0]), key(b[0]);
    assert a[0] in WithKey(a, key, ka);
    InWithKey(b, key, ka, a[0]);
    assert kb <= ka;
    assert b[0] in WithKey(b, key, kb);
    InWithKey(a, key, kb, b[0]);
    assert ka <= kb;
    assert WithKey(a, key, ka)[0] == a[0];
    assert WithKey(b, key, kb)[0] == b[0];
    forall k ensures WithKey(a[1..], key, k) == WithKey(b[1..], key, k) {
      var head := if key(a[0]) == k then [a[0]] else [];
      assert WithKey(a, key, k) == head + WithKey(a[1..], key, k);
      assert WithKey(b, key, k) == head + WithKey(b[1..], key, k);
      assert WithKey(a[1..], key, k) == WithKey(a, key, k)[|head|..];
      assert WithKey(b[1..], key, k) == WithKey(b, key, k)[|head|..];
    }
  }

  /** Hence `SortBy` is the result of the stable sort the source calls. */
  lemma SortByIsTheStableSort<T>(xs: seq<T>, ys: seq<T>, key: T -> int)
    requires SortedBy(ys, key) && SameTies(xs, ys, key)
    ensures ys == SortBy(xs, key)
  {
    var r := SortBy(xs, key);
    assert SameTies(r, ys, key) by {
      forall k ensures WithKey(r, key, k) == WithKey(ys, key, k) {
        assert WithKey(xs, key, k) == WithKey(r, key, k);
      }
    }
    StableSortUnique(r, ys, key);
  }
}

=== FILE: text.dfy ===
/** The JavaScript string operations the extension relies on: `includes`,
    `replace` with a string pattern (first occurrence only) and `trim`. */
module Text {
  import opened Outcomes

  /** `pat` occurs in `s` starting at index `k`. */
  predicate OccursAt(s: string, pat: string, k: int) {
    0 <= k && k + |pat| <= |s| && s[k..k + |pat|] == pat
  }

  /** `s.indexOf(pat)`: the first index where `pat` occurs, if any. */
  function FindFirst(s: string, pat: string): (r: Option<nat>)
    ensures r.Some? ==> OccursAt(s, pat, r.value)
    ensures r.Some? ==> forall k :: 0 <= k < r.value ==> !OccursAt(s, pat, k)
    ensures r.None? ==> forall k :: !OccursAt(s, pat, k)
  {
    FindFrom(s, pat, 0)
  }

  function FindFrom(s: string, pat: string, start: nat): (r: Option<nat>)
    requires forall k :: 0 <= k < start ==> !OccursAt(s, pat, k)
    ensures r.Some? ==> start <= r.value && OccursAt(s, pat, r.value)
    ensures r.Some? ==> forall k :: 0 <= k < r.value ==> !OccursAt(s, pat, k)
    ensures r.None? ==> forall k :: !OccursAt(s, pat, k)
    decreases |s| - start
  {
    if start + |pat| > |s| then None
    else if s[start..start + |pat|] == pat then Some(start)
    else FindFrom(s, pat, start + 1)
  }

  /** The first occurrence is the one `FindFirst` reports. */
  lemma FindFirstIs(s: string, pat: string, n: nat)
    requires OccursAt(s, pat, n)
    requires forall k :: 0 <= k < n ==> !OccursAt(s, pat, k)
    ensures FindFirst(s, pat) == Some(n)
  {
  }

  /** `s.includes(pat)`. */
  predicate Contains(s: string, pat: string) {
    FindFirst(s, pat).Some?
  }

  /** `s.replace(pat, rep)` with a string pattern: only the first occurrence is replaced. */
  function ReplaceFirst(s: string, pat: string, rep: string): (r: string)
    ensures (forall k :: !OccursAt(s, pat, k)) ==> r == s
    ensures forall i :: OccursAt(s, pat, i) && (forall k :: 0 <= k < i ==> !OccursAt(s, pat, k))
              ==> r == s[..i] + rep + s[i + |pat|..]
  {
    match FindFirst(s, pat)
    case None => s
    case Some(i) => s[..i] + rep + s[i + |pat|..]
  }

  /** The characters `String.prototype.trim` strips: ECMAScript WhiteSpace
      (TAB, VT, FF, ZWNBSP and every Space_Separator) and LineTerminator. */
  predicate IsJsWhitespace(c: char) {
    || c == '\t' || c == '\U{000B}' || c == '\U{000C}' || c == ' ' || c == '\U{00A0}'
    || c == '\U{FEFF}' || c == '\U{1680}' || ('\U{2000}' <= c <= '\U{200A}')
    || c == '\U{202F}' || c == '\U{205F}' || c == '\U{3000}'
    || c == '\n' || c == '\r' || c == '\U{2028}' || c == '\U{2029}'
  }

  predicate AllWhitespace(s: string) {
    forall i :: 0 <= i < |s| ==> IsJsWhitespace(s[i])
  }

  /** How many whitespace characters `s` starts with. */
  function LeadingSpace(s: string): (n: nat)
    ensures n <= |s|
    ensures forall k :: 0 <= k < n ==> IsJsWhitespace(s[k])
    ensures n < |s| ==> !IsJsWhitespace(s[n])
  {
    if s != [] && IsJsWhitespace(s[0]) then 1 + LeadingSpace(s[1..]) else 0
  }

  /** How many whitespace characters `s` ends with. */
  function TrailingSpace(s: string): (n: nat)
    ensures n <= |s|
    ensures forall k :: |s| - n <= k < |s| ==> IsJsWhitespace(s[k])
    ensures n < |s| ==> !IsJsWhitespace(s[|s| - 1 - n])
  {
    if s != [] && IsJsWhitespace(s[|s| - 1]) then 1 + TrailingSpace(s[..|s| - 1]) else 0
  }

  /** `s.trim()`: drop the whitespace at both ends. The result is the infix of
      `s` between a whitespace-only prefix and a whitespace-only suffix, and it
      neither starts nor ends with whitespace. */
  function Trim(s: string): (r: string)
    ensures exists i :: 0 <= i <= |s| - |r| && r == s[i..i + |r|]
                        && AllWhitespace(s[..i]) && AllWhitespace(s[i + |r|..])
    ensures r == [] || (!IsJsWhitespace(r[0]) && !IsJsWhitespace(r[|r| - 1]))
    ensures r == [] <==> AllWhitespace(s)
  {
    var a := LeadingSpace(s);
    var b := if a == |s| then 0 else TrailingSpace(s);
    TrimmedInfix(s, a, b);
    s[a..|s| - b]
  }

  /** With `a` leading and (when something is left) `b` trailing whitespace
      characters, the middle part is the trimmed infix. */
  lemma {:induction false} TrimmedInfix(s: string, a: nat, b: nat)
    requires a <= |s| && forall k :: 0 <= k < a ==> IsJsWhitespace(s[k])
    requires a < |s| ==> !IsJsWhitespace(s[a])
    requires a == |s| ==> b == 0
    requires a < |s| ==> b <= |s| && (forall k :: |s| - b <= k < |s| ==> IsJsWhitespace(s[k]))
                         && (b < |s| ==> !IsJsWhitespace(s[|s| - 1 - b]))
    ensures a + b <= |s|
    ensures var r := s[a..|s| - b];
            && (exists i :: 0 <= i <= |s| - |r| && r == s[i..i + |r|]
                            && AllWhitespace(s[..i]) && AllWhitespace(s[i + |r|..]))
            && (r == [] || (!IsJsWhitespace(r[0]) && !IsJsWhitespace(r[|r| - 1])))
            && (r == [] <==> AllWhitespace(s))
  {
    if a < |s| {
      TrimmedBound(s, a, b);
      TrimmedEnds(s, a, b);
    }
    TrimmedWitness(s, a, b);
    TrimmedEmpty(s, a, b);
  }

  /** Something is left when `s` has a character that is not whitespace. */
  lemma {:induction false} TrimmedBound(s: string, a: nat, b: nat)
    requires a < |s| && !IsJsWhitespace(s[a])
    requires b <= |s| && forall k :: |s| - b <= k < |s| ==> IsJsWhitespace(s[k])
    ensures a + b < |s|
  {
  }

  lemma {:induction false} TrimmedEnds(s: string, a: nat, b: nat)
    requires a + b < |s|
    requires !IsJsWhitespace(s[a]) && !IsJsWhitespace(s[|s| - 1 - b])
    ensures var r := s[a..|s| - b]; !IsJsWhitespace(r[0]) && !IsJsWhitespace(r[|r| - 1])
  {
    var r := s[a..|s| - b];
    assert r[0] == s[a] && r[|r| - 1] == s[|s| - 1 - b];
  }

  lemma {:induction false} TrimmedWitness(s: string, a: nat, b: nat)
    requires a + b <= |s|
    requires forall k :: 0 <= k < a ==> IsJsWhitespace(s[k])
    requires forall k :: |s| - b <= k < |s| ==> IsJsWhitespace(s[k])
    ensures var r := s[a..|s| - b];
            exists i :: 0 <= i <= |s| - |r| && r == s[i..i + |r|]
                        && AllWhitespace(s[..i]) && AllWhitespace(s[i + |r|..])
  {
    var r := s[a..|s| - b];
    assert AllWhitespace(s[..a]);
    assert AllWhitespace(s[a + |r|..]);
    assert r == s[a..a + |r|];
  }

  lemma {:induction false} TrimmedEmpty(s: string, a: nat, b: nat)
    requires a <= |s| && forall k :: 0 <= k < a ==> IsJsWhitespace(s[k])
    requires a < |s| ==> !IsJsWhitespace(s[a])
    requires a + b <= |s| && (a < |s| ==> a + b < |s|)
    requires a == |s| ==> b == 0
    ensures s[a..|s| - b] == [] <==> AllWhitespace(s)
  {
    if a == |s| {
      forall k | 0 <= k < |s| ensures IsJsWhitespace(s[k]) {
      }
    }
  }
}

=== FILE: time_format.dfy ===
/** The "MM:SS" label the extension stores with every note and shows on every
    surface. The same `formatTime` text appears in content.js, options.js and
    popup.js; it is defined once here. */
module TimeFormat {
  import opened Outcomes
  import opened Decimal

  /** `String.prototype.padStart(2, '0')`: left-pad with zeros to width 2, never truncate. */
  function PadTwo(s: string): (r: string)
    ensures |r| == if |s| >= 2 then |s| else 2
    ensures r[|r| - |s|..] == s
    ensures forall i :: 0 <= i < |r| - |s| ==> r[i] == '0'
  {
    if |s| >= 2 then s else if |s| == 1 then "0" + s else "00"
  }

  lemma PadTwoValue(s: string)
    requires AllDigits(s)
    ensures AllDigits(PadTwo(s)) && ParseDigits(PadTwo(s)) == ParseDigits(s)
  {
    if |s| == 1 {
      ParseLeadingZero(s);
    } else if |s| == 0 {
      assert PadTwo(s) == "0" + "0";
      ParseLeadingZero("0");
    }
  }

  /** One field of the label: `String(n)` padded to two digits. */
  function Field(n: nat): string
  {
    PadTwo(NatToString(n))
  }

  /** A field is a string of at least two digits that reads back as `n`;
      below 100 it has exactly two. */
  lemma FieldValue(n: nat)
    ensures var f := Field(n);
            |f| >= 2 && AllDigits(f) && ParseDigits(f) == n && (n < 100 ==> |f| == 2)
  {
    ParseNatToString(n);
    PadTwoValue(NatToString(n));
  }

  /** `formatTime`: whole minutes (not wrapped into hours), a colon, and the
      seconds within the minute, each zero-padded to at least two digits. Read
      back: the part before the last colon is the decimal count of whole
      minutes, with at least two digits; the part after it is exactly two
      digits giving the seconds within the minute. */
  function FormatTime(seconds: nat): (r: string)
    ensures |r| >= 5 && r[|r| - 3] == ':'
    ensures AllDigits(r[..|r| - 3]) && ParseDigits(r[..|r| - 3]) == seconds / 60
    ensures AllDigits(r[|r| - 2..]) && ParseDigits(r[|r| - 2..]) == seconds % 60
  {
    var mins, secs := Field(seconds / 60), Field(seconds % 60);
    FieldValue(seconds / 60);
    FieldValue(seconds % 60);
    JoinFields(mins, secs);
    mins + ":" + secs
  }

  lemma JoinFields(mins: string, secs: string)
    requires |secs| == 2
    ensures var r := mins + ":" + secs; r[..|r| - 3] == mins && r[|r| - 3] == ':' && r[|r| - 2..] == secs
  {
    var r := mins + ":" + secs;
    assert r[..|r| - 3] == mins;
    assert r[|r| - 2..] == secs;
  }

  /** Reads a label of the shape `formatTime` produces: at least two minute
      digits, a colon, exactly two second digits below 60. */
  function ParseTime(stamp: string): (r: Option<nat>)
  {
    if |stamp| >= 5 && stamp[|stamp| - 3] == ':'
       && AllDigits(stamp[..|stamp| - 3]) && AllDigits(stamp[|stamp| - 2..])
       && ParseDigits(stamp[|stamp| - 2..]) < 60
    then Some(ParseDigits(stamp[..|stamp| - 3]) * 60 + ParseDigits(stamp[|stamp| - 2..]))
    else None
  }

  /** Every label reads back as the seconds it was made from. */
  lemma FormatTimeRoundTrip(seconds: nat)
    ensures ParseTime(FormatTime(seconds)) == Some(seconds)
  {
  }

  /** The label carries no extra zeros: it is exactly five characters while
      the minutes fit in two digits, and a longer label starts with a
      non-zero digit. */
  lemma FormatTimeMinimal(seconds: nat)
    ensures |FormatTime(seconds)| == 5 <==> seconds / 60 < 100
    ensures |FormatTime(seconds)| > 5 ==> FormatTime(seconds)[0] != '0'
  {
    var mins := seconds / 60;
    FormatTimeOfFields(seconds, mins, seconds % 60);
    FieldValue(mins);
    FieldValue(seconds % 60);
    if mins >= 100 {
      LongNumber(mins);
      assert Field(mins) == NatToString(mins);
    }
  }

  /** Distinct times never share a label. */
  lemma FormatTimeInjective(a: nat, b: nat)
    requires FormatTime(a) == FormatTime(b)
    ensures a == b
  {
    FormatTimeRoundTrip(a);
    FormatTimeRoundTrip(b);
  }

  /** The worked values: no hour roll-over, minutes grow past two digits. */
  lemma FormatTimeExamples()
    ensures FormatTime(0) == "00:00"
    ensures FormatTime(42) == "00:42"
    ensures FormatTime(65) == "01:05"
  {
    FormatTimeOfZero();
    FormatTimeOfFortyTwo();
    FormatTimeOfMinuteAndFive();
  }

  /** Past an hour the minutes keep counting: there is no hours field. */
  lemma FormatTimeLongExamples()
    ensures FormatTime(3600) == "60:00"
    ensures FormatTime(7509) == "125:09"
  {
    FormatTimeOfHour();
    FormatTimeOfLongVideo();
  }

  lemma FormatTimeOfZero()
    ensures FormatTime(0) == "00:00"
  {
    FieldOfDigit(0);
  }

  lemma FormatTimeOfFortyTwo()
    ensures FormatTime(42) == "00:42"
  {
    FormatTimeOfFields(42, 0, 42);
    FieldOfDigit(0);
    FieldOfFortyTwo();
  }

  lemma FormatTimeOfMinuteAndFive()
    ensures FormatTime(65) == "01:05"
  {
    FormatTimeOfFields(65, 1, 5);
    FieldOfDigit(1);
    FieldOfDigit(5);
  }

  lemma FormatTimeOfHour()
    ensures FormatTime(3600) == "60:00"
  {
    FormatTimeOfFields(3600, 60, 0);
    FieldOfSixty();
    FieldOfDigit(0);
  }

  lemma FormatTimeOfLongVideo()
    ensures FormatTime(7509) == "125:09"
  {
    FormatTimeOfFields(7509, 125, 9);
    FieldOfOneTwoFive();
    FieldOfDigit(9);
  }

  lemma FormatTimeOfFields(seconds: nat, mins: nat, secs: nat)
    requires seconds / 60 == mins && seconds % 60 == secs
    ensures FormatTime(seconds) == Field(mins) + ":" + Field(secs)
  {
  }

  lemma FieldOfDigit(d: nat)
    requires d < 10
    ensures Field(d) == ['0', DigitChar(d)]
  {
  }

  lemma FieldOfSixty()
    ensures Field(60) == "60"
  {
    assert NatToString(6) == "6";
    assert NatToString(60) == "60";
  }

  lemma FieldOfFortyTwo()
    ensures Field(42) == "42"
  {
    assert NatToString(4) == "4";
    assert NatToString(42) == "42";
  }

  lemma FieldOfOneTwoFive()
    ensures Field(125) == "125"
  {
    assert NatToString(1) == "1";
    assert NatToString(12) == "12";
    assert NatToString(125) == "125";
  }
}
